=== FILE: README.md ===
# EMS portal: session, routing and admin-page logic in Dafny

The EMS portal is a React single-page app for employees and admins. This project
models the decisions the app takes as pure functions over immutable data, and
proves what those decisions guarantee. It covers these parts of the app:

- **Session.** `AuthContext` provides this. `login` fabricates a user from the
  email address and never fails. The role is admin exactly when the address
  contains `admin`. The user's serialisation is stored under the `emsUser` key.
  `logout` clears the user, removes the record, empties the session store and
  only then completes. On mount, the provider restores a stored user. It deletes
  a record that does not decode, and renders nothing until it has looked.
  Browser storage is two string maps. JSON is a codec (`Codec`) that writes a
  user as `JSON.stringify` does, string escapes included. Its decoder accepts
  exactly that form: text decodes to a user if and only if it is that user's
  serialisation (`Codec.DecodeExactlyEncode`). So every text the decoder accepts
  is one `JSON.parse` also accepts, with the same user as its value.
- **Routing.** Three parts decide where a visitor ends up.
  - The route table of `App`: `/` goes to the login page, seven page routes sit
    behind the guard, and any other path goes to the login page or to the
    signed-in role's dashboard. Routes match in any letter case and with any
    number of trailing slashes, as the router's matcher does.
  - The `Layout` guard. A signed-out visitor goes to `/login` with the requested
    path saved. An admin away from `/admin` and `/profile` paths goes to the
    admin dashboard. An employee on an `/admin` path goes to `/dashboard`.
  - The login page's own redirect and submit handler.

  A redirect is a returned `Decision`. The proofs show that every redirect chain
  settles on a path where nothing redirects again. For a signed-in user that is
  a page the guard allows; for a signed-out visitor it is the login page. Usually
  that takes one hop. A signed-in visitor at `/` takes two: `/` → `/login` →
  their dashboard.
- **Start-up.** `App`'s own mount effect runs after the provider's rehydration,
  because React runs a commit's passive effects children first. It deletes the
  stored user and empties the session store, so a restored user stays in memory
  for that load only. On a path containing `/admin` it also reloads the page,
  which then finds no record.
- **Navigation chrome.** The sidebar's role-dependent links, and the header's
  portal label, page title and menu target. Both logout buttons leave the page
  only after logout has completed.
- **Roster query.** This is the admin employee list. It has a case-insensitive
  search over name, email, department and position, ANDed with a status filter.
  It has an optional sort on one field, which is stable and ascending or
  descending. Clicking a sort header toggles the sort. A stats card shows the
  counts.
- **Settings.** The working-day checkboxes add or remove a day in an ordered
  list. Each of the five on/off switches negates its flag.

Path tests are substring containment, as JavaScript's `includes` is. `Text`
defines containment recursively and proves it equivalent to "occurs at some
index".

Four behaviours of the code are worth stating plainly:

- **Guard tests.** The guard's tests are containment anywhere in the path
  (src/components/Layout.tsx:21-27), and they are case-sensitive. Taken alone,
  the guard lets an admin stay on `/x/profile/y` and turns an employee away
  from `/x/admin`. See `Layout.EmployeeTurnedAwayAnywhere` and
  `Layout.AdminAllowedAnywhere`. On the seven page paths themselves, admins may
  stay on the three admin pages and the profile page, and employees on the four
  employee pages (`App.PageAllowed`). Because the routes match case-insensitively
  and the guard does not, an employee may stay on `/ADMIN/employees`; see
  "## Findings".
- **The root path.** `/` always goes to `/login`, whether or not someone is
  signed in (src/App.tsx:51). A signed-in visitor is then forwarded by the
  login page. Of `/` and the catch-all, only the catch-all sends a signed-in
  visitor straight to their dashboard (src/App.tsx:69).
- **Empty records.** An empty stored record is falsy, so rehydration skips it
  and leaves it in storage rather than discarding it
  (src/context/AuthContext.tsx:64).
- **Credentials.** `login` succeeds for any credentials, empty ones included.
  Nothing in the login function checks them (src/context/AuthContext.tsx:26-42).
  Only the form's `required` fields keep empty ones from being submitted.

Modules, in dependency order:

- `Wrappers`: `Option`
- `Text`: containment, ASCII lower-casing, trailing-slash stripping, lexicographic order, subsequences
- `Types`: `Role`, `User`
- `Codec`: the stored form of a user
- `Auth`
- `Layout`
- `LoginPage`
- `App`
- `Sidebar`
- `Header`
- `Employees`
- `Settings`

## Model

| member | source | states |
|---|---|---|
| Auth.Mount | src/context/AuthContext.tsx:22-23 | The provider starts with nobody signed in and loading, so its children are not rendered yet. Storage is as the browser kept it. |
| Auth.MockUser | src/context/AuthContext.tsx:28-36 | The fabricated user carries the given email. Its role is admin exactly when "admin" occurs somewhere in the email. Every other field is the fixed placeholder (id "1", John Doe, Engineering, Software Developer, 75000). |
| Auth.Login | src/context/AuthContext.tsx:26-42 | Login returns the fabricated user and makes it the current user. It writes that user's serialisation under `emsUser` and changes no other local key. The stored text decodes back to the same user. The session store and the loading flag are untouched. |
| Auth.LoginIgnoresPassword | src/context/AuthContext.tsx:26-42 | Two logins that differ only in the password give identical results. |
| Auth.Logout | src/context/AuthContext.tsx:44-59 | From any state, logout leaves no user, removes only the `emsUser` key, empties the session store and keeps the loading flag. |
| Auth.LogoutClearsUserFirst | src/context/AuthContext.tsx:45-46 | The first logout step alone already clears the user. |
| Auth.LogoutDoneBeforeCompletion | src/context/AuthContext.tsx:46-58 | The last logout step is the completion. The steps before it already produce the full logout state. |
| Auth.LogoutIdempotent | src/context/AuthContext.tsx:44-59 | Logging out twice gives the same state as logging out once. |
| Auth.Rehydrate | src/context/AuthContext.tsx:61-73 | The mount effect always ends loading and never touches the session store. |
| Auth.Boot | src/context/AuthContext.tsx:61-77 | Nothing renders at mount, and the children render once the effect has run. With no record, or an empty one, nobody is signed in and storage is unchanged. A record that decodes becomes the user and is kept. A non-empty record that does not decode leaves nobody signed in and is deleted, with everything else kept. |
| Auth.BootRestoresOnlyEncoded | src/context/AuthContext.tsx:63-67 | A start restores a user exactly when the stored record is that user's serialisation. So a record that `JSON.parse` would reject never restores anyone. |
| Auth.LoginThenRestart | src/context/AuthContext.tsx:39-66 | After a login, a fresh start restores exactly the user that login returned. |
| Auth.LogoutThenRestart | src/context/AuthContext.tsx:49-64 | After a logout, a fresh start restores nobody. |
| Auth.LeavingFindsSessionCleared | src/components/Sidebar.tsx:31-35 | When a logout button's step list leaves the page, the steps before leaving have cleared the user, the `emsUser` record and the session store. |
| Codec.Encode | src/context/AuthContext.tsx:39 | The stored text is never empty and opens with `{`, so the rehydration's truthiness test always sees it. |
| Codec.EscapeChar | src/context/AuthContext.tsx:39 | A character is written as itself unless it is the quote, the backslash or a control character, which are written as an escape starting with a backslash, never with a quote. |
| Codec.Decode | src/context/AuthContext.tsx:66 | Only text that opens with the id member decodes. In the model, a non-empty record that fails to decode takes the delete path. |
| Codec.ReadChar | src/context/AuthContext.tsx:66 | One character of a string is read only in the form `JSON.stringify` writes it. The text taken is exactly that character's written form, so an unknown escape such as `\q` and a raw control character are malformed. |
| Codec.ParseStringBody | src/context/AuthContext.tsx:66 | A string body that reads at all is the escaped form of what it reads, followed by the closing quote and the rest. |
| Codec.ParseIntCanonical | src/types/index.ts:8 | Only a number in the form the encoder writes reads: no leading zero, no negative zero. |
| Codec.RejectsWhatParseRejects | src/context/AuthContext.tsx:66 | The escape `\q`, a raw U+0001 in a string and the number `075000` are malformed, as `JSON.parse` finds them. |
| Codec.DecodeCanonical | src/context/AuthContext.tsx:66 | Text that decodes is exactly the serialisation of the user it decodes to. |
| Codec.DecodeExactlyEncode | src/context/AuthContext.tsx:39 | Text decodes to a user if and only if it is that user's serialisation. |
| Codec.DecodeEncode | src/context/AuthContext.tsx:39 | Decoding the stored serialisation of any user gives back that user. |
| Codec.DecodeRejectsNonObject | src/context/AuthContext.tsx:65-70 | Text that is empty or does not start with `{` fails to decode. In the model, a non-empty record that fails to decode takes the delete path; the empty record never reaches the decoder. |
| Codec.ParseIntRoundTrip | src/types/index.ts:8 | An integer salary written out in decimal parses back to itself, with the following text left over, provided that text does not start with a digit. |
| Layout.RoleRedirects | src/components/Layout.tsx:19-30 | The role effect's two checks issue at most one navigation. They issue none exactly when the role policy permits the path, and otherwise they go to the role's dashboard. |
| Layout.Guard | src/components/Layout.tsx:13-30 | A signed-out visitor is sent to /login with the requested path saved. A signed-in user is allowed exactly when the policy permits the path, and otherwise goes to their dashboard with nothing saved. |
| Layout.HomeIsAllowed | src/components/Layout.tsx:21-29 | Each role's dashboard passes the guard for that role. |
| Layout.GuardRedirectSettles | src/components/Layout.tsx:19-30 | The target of any guard redirect of a signed-in user passes the guard. |
| Layout.EmployeeTurnedAwayAnywhere | src/components/Layout.tsx:27-28 | An employee is sent to /dashboard from every path with "/admin" anywhere inside it. |
| Layout.AdminAllowedAnywhere | src/components/Layout.tsx:21-23 | An admin may stay on every path with "/admin" or "/profile" anywhere inside it. |
| Layout.CaseInsensitiveGuard | src/components/Layout.tsx:13-30 | The corrected guard applies the role policy to the lower-cased path, saves the path as asked, and sends a refused user home. On a path without capitals it decides exactly as the guard as written does. |
| Layout.LayoutRender | src/components/Layout.tsx:9-19 | A render as written calls the auth, location and navigate hooks first. It calls the role effect exactly when someone is signed in, and decides as the guard does. |
| Layout.SignOutBreaksHookOrder | src/components/Layout.tsx:14-19 | Signing out re-renders the mounted guard with a different hook list from the render before it, which breaks React's hook rule. |
| Layout.LayoutRenderFixed | src/components/Layout.tsx:13-30 | With the effect called before the early return, every render calls the same four hooks in the same order, whoever is signed in, and decides as the guard does. |
| Layout.SignOutKeepsHookOrderFixed | src/components/Layout.tsx:13-30 | With the effect hoisted, the render after signing out keeps the hook list, and it sends the visitor to /login with the path saved. |
| App.AdminSectionPages | src/App.tsx:55-66 | Of the seven page paths, exactly the three admin pages contain "/admin". Outside the admin section, only the profile page's path contains "/profile". |
| App.Match | src/App.tsx:49-69 | A route matches its own path in any letter case and with any number of trailing slashes. `/` takes any non-empty run of slashes alone. A guarded match renders the page whose path is the route form. A path falls to the catch-all exactly when its route form is none of the nine route paths. |
| App.RoleBasedRedirect | src/App.tsx:16-24 | A signed-in user is sent to their role's dashboard. With nobody signed in, the target is /dashboard. |
| App.Resolve | src/App.tsx:51-69 | The root route always goes to /login with nothing saved. The seven page routes defer to the guard. The login route defers to the login page's entry redirect. Anything else goes to /login when signed out, and otherwise to the role's dashboard. |
| App.OnlyPagesAreGuarded | src/App.tsx:51-66 | A path consults the guard exactly when its route form is one of the seven page paths. The root and login routes never do. |
| App.PageAllowed | src/App.tsx:55-66 | On each page's own path, a signed-in admin may stay on exactly the three admin pages and the profile page, and an employee on exactly the four employee pages. |
| App.MatchByRouteForm | src/App.tsx:55-66 | Every path whose route form is a page path renders that page, whatever its letter case or trailing slashes. |
| App.EmployeeStaysWithoutFragment | src/components/Layout.tsx:27-28 | An employee may stay on any path that renders a page but does not hold "/admin" in that exact case. |
| App.EmployeeStaysOnUpperCaseAdminPath | src/App.tsx:64 | As written, `/ADMIN/employees` renders the admin employee list, and an employee may stay there. |
| App.CaseInsensitiveGuardKeepsRoles | src/components/Layout.tsx:21-28 | Under the corrected guard, every path that renders an admin page sends an employee to /dashboard. Every path that renders an admin page or the profile page lets an admin stay. |
| App.HomeResolvesToAllow | src/App.tsx:57-63 | Each role's dashboard route resolves to allow for that role. |
| App.LoginResolvesToAllowWhenSignedOut | src/App.tsx:52 | A signed-out visitor may stay on /login. |
| App.EveryRedirectSettles | src/App.tsx:51-69 | Following any redirect once reaches a path where nothing redirects again. The one exception is a signed-in visitor on the root route, whose second redirect (from /login) reaches one. |
| App.CatchAllDestinationAllowed | src/App.tsx:69 | The catch-all target of a signed-in user passes the guard for their role. |
| App.Render | src/context/AuthContext.tsx:77 | While the provider is loading no route decides anything. Afterwards the decision is the route's resolution for the current user. |
| App.SignInReturnsToSavedPath | src/pages/Login.tsx:33 | The path the guard saves for a signed-out visitor is exactly where a successful sign-in then navigates. |
| App.SignInWithoutSavedPathSettles | src/pages/Login.tsx:32-34 | Without a saved path, a successful sign-in navigates to a page that allows the new user. |
| App.SignedOutEndsAtLogin | src/App.tsx:51-69 | A signed-out visitor either stays on the login route or is sent to /login. |
| App.Wipe | src/App.tsx:77-93 | The start-up effect keeps the user in memory and the loading flag. It deletes the stored user, writes the clock reading under the timestamp key, keeps every other local key and empties the session store. |
| App.Start | src/App.tsx:77-109 | A page load restores whoever the provider restores, but leaves no stored user and an empty session store. |
| App.Load | src/App.tsx:95-101 | Off admin paths a load is one start. On a path containing "/admin" the reload leaves nobody signed in and no stored user. |
| App.StartAfterLogin | src/App.tsx:79-80 | A load after signing in restores the signed-in user in memory, but the record is gone straight away, so the load after that restores nobody. |
| App.AdminPageLoadEndsSignedOut | src/App.tsx:96-101 | Loading an admin path after signing in ends with nobody signed in, and the route then keeps the visitor on or sends them to /login. |
| LoginPage.EntryRedirect | src/pages/Login.tsx:17-22 | A signed-out visitor stays on the login page. A signed-in one is sent to their role's dashboard. |
| LoginPage.RendersForm | src/pages/Login.tsx:46-48 | The form shows exactly when the mount effect does not redirect, that is, when nobody is signed in. |
| LoginPage.Destination | src/pages/Login.tsx:32-33 | A non-empty saved path wins. A missing or empty one falls back to the role's dashboard. The destination is never empty. |
| LoginPage.SubmitStart | src/pages/Login.tsx:26-27 | Submitting sets the busy flag and clears any earlier error. |
| LoginPage.SubmitFinish | src/pages/Login.tsx:29-39 | The busy flag is always cleared. A thrown login shows the fixed error message and does not navigate. A resolved login navigates to the destination. |
| LoginPage.HandleSubmit | src/pages/Login.tsx:24-40 | The page navigates exactly when login resolves: with no error and to the destination. On a throw it shows "Invalid email or password. Please try again." It is never left busy. |
| Sidebar.NavItems | src/components/Sidebar.tsx:18-29 | The link paths are pairwise distinct. An admin gets three links, all in the admin section. Anyone else, signed out included, gets four links, none in it. |
| Sidebar.NavLinksPassGuard | src/components/Sidebar.tsx:48-51 | Every link offered to a signed-in user resolves to allow for that user. |
| Sidebar.HandleLogout | src/components/Sidebar.tsx:31-35 | The button leaves for /login only as its last act. Before that it performs the logout steps up to their completion, which amount to a full logout. |
| Header.PortalLabel | src/components/Header.tsx:14 | The label is one of the two portal names. It reads "Admin Portal" exactly when the path contains "/admin". |
| Header.PortalLabelOnPages | src/components/Header.tsx:55-56 | On the seven page paths the label reads "Admin Portal" exactly on the three admin pages. |
| Header.PageTitle | src/components/Header.tsx:17-26 | The title belongs to the first of the six rules whose fragment the path contains. When none matches, it is the default "Dashboard". |
| Header.EarlierRuleWins | src/components/Header.tsx:19-23 | A path containing both "/dashboard" and a later "/employees" is titled "Dashboard". |
| Header.MenuTarget | src/components/Header.tsx:91 | The menu item opens the admin settings page on admin-section paths, and the profile page otherwise. |
| Header.MenuTargetAllowed | src/components/Header.tsx:91 | On any page the guard lets a user stay on, the menu item opens a page the guard also lets them stay on. |
| Header.LabelFollowsPath | src/components/Header.tsx:55-56 | The label follows the path, not the role. An admin may stay on /profile, and there reads "Employee Portal". |
| Header.HandleLogout | src/components/Header.tsx:28-32 | The logout item leaves for /login only after the logout steps have completed and cleared the session. |
| Employees.MatchesSearch | src/pages/admin/Employees.tsx:100-104 | A record matches when the lower-cased term occurs at some offset in the lower-cased name, email, department or position. The phone number is not searched. |
| Employees.SearchIgnoresCase | src/pages/admin/Employees.tsx:101-104 | A term and its lower-cased form match the same records. |
| Employees.MatchesFilter | src/pages/admin/Employees.tsx:106 | Status "all" passes every record. Any other status passes exactly the records that have it. |
| Employees.Keep | src/pages/admin/Employees.tsx:99-108 | A record is kept exactly when it passes both the search and the status filter. With an empty search, the status filter alone decides. |
| Employees.Filter | src/pages/admin/Employees.tsx:99-109 | The result is an order-preserving subsequence of the roster, and every record in it passes. Each passing record appears as often as in the roster, and a failing one not at all. |
| Employees.EmptySearchMatches | src/pages/admin/Employees.tsx:100-104 | The empty search term matches every record. |
| Employees.FilterKeepsAll | src/pages/admin/Employees.tsx:99-109 | When every record passes, the filter returns the roster unchanged. |
| Employees.EmptySearchAllStatus | src/pages/admin/Employees.tsx:100-106 | An empty search with status "all" shows the whole roster, in order. |
| Employees.EmptySearchByStatus | src/pages/admin/Employees.tsx:100-106 | An empty search with a specific status keeps a record exactly when it is in the roster with that status. |
| Employees.FieldText | src/pages/admin/Employees.tsx:114-115 | A sort key yields text exactly for the eight text keys of a record. |
| Employees.InOrder | src/pages/admin/Employees.tsx:117-123 | Records with equal keys compare as equal and may go in either order, and so does everything under a key that holds no text. |
| Employees.DescendingReversesAscending | src/pages/admin/Employees.tsx:118-120 | A descending comparison is the ascending one with the records swapped. |
| Employees.InOrderTransitive | src/pages/admin/Employees.tsx:117-120 | On a text key the comparator is transitive. |
| Employees.InOrderTotal | src/pages/admin/Employees.tsx:117-123 | For any two records the comparator lets one of them go first. |
| Employees.Insert | src/pages/admin/Employees.tsx:113-124 | Inserting adds exactly the one record, and keeps a sorted list sorted. |
| Employees.SortBy | src/pages/admin/Employees.tsx:112-125 | The sorted list is a permutation of its input, and every adjacent pair is in comparator order. |
| Employees.SortStable | src/pages/admin/Employees.tsx:113-124 | Records that share a sort key keep their relative order. |
| Employees.SortOnNonTextFieldIsIdentity | src/pages/admin/Employees.tsx:117-123 | Sorting on a key that holds no string compares everything as equal, so the order is left unchanged. |
| Employees.SortedByText | src/pages/admin/Employees.tsx:117-120 | In an ascending sort, adjacent records are non-decreasing in the field's text. In a descending sort, they are non-increasing. |
| Employees.SortedPairs | src/pages/admin/Employees.tsx:112-125 | On a text key, any earlier record of a sorted list is in comparator order with any later one, not only with its neighbour. |
| Employees.Query | src/pages/admin/Employees.tsx:98-125 | Without a sort, the displayed list is the filtered list. With one, it is a sorted permutation of the filtered list in which records sharing a key keep their filtered order. A record is displayed exactly when it is in the roster and passes. The list is never longer than the roster. |
| Employees.HandleSort | src/pages/admin/Employees.tsx:128-137 | The new sort is on the clicked field. It flips direction when that field was already sorted, and is ascending otherwise. |
| Employees.SortClickTwice | src/pages/admin/Employees.tsx:129-133 | Two clicks on the current sort field restore the sort. |
| Employees.CountStatusIsFilter | src/pages/admin/Employees.tsx:142-143 | Counting a status gives the length of the list that status's filter shows with an empty search. |
| Employees.EmployeeStats | src/pages/admin/Employees.tsx:140-144 | The total is the roster size. The active and inactive counts are the lengths of the lists the "active" and "inactive" status filters show with an empty search. Active + inactive never exceeds the total, and equals it exactly when every status is "active" or "inactive". |
| Employees.ActiveInactiveCover | src/pages/admin/Employees.tsx:142-143 | The active and inactive counts together are at most the roster size. They reach it exactly when no record has another status. |
| Employees.MockRosterStats | src/pages/admin/Employees.tsx:40-96 | The built-in five-record roster reads 5 total, 4 active and 1 inactive. |
| Employees.ShownWithinTotal | src/pages/admin/Employees.tsx:453-454 | The "Showing n of m" count never exceeds the total. |
| Settings.RemoveAll | src/pages/admin/Settings.tsx:51 | The day no longer occurs. The remaining list is an order-preserving subsequence in which every other day occurs as often as before. |
| Settings.RemoveAllKeepsNoDuplicates | src/pages/admin/Settings.tsx:51 | Removing a day from a list without repeats leaves a list without repeats. |
| Settings.ToggleDay | src/pages/admin/Settings.tsx:49-55 | The toggled day's membership flips and every other day's membership is unchanged. A listed day is removed, with the rest kept in order and count. An unlisted day is appended at the end. |
| Settings.ToggleAbsentTwice | src/pages/admin/Settings.tsx:50-53 | Ticking an unticked day and then unticking it restores the list exactly. |
| Settings.ToggleKeepsNoDuplicates | src/pages/admin/Settings.tsx:50-53 | A toggle keeps a list without repeats free of repeats. |
| Settings.ToggleSequenceKeepsNoDuplicates | src/pages/admin/Settings.tsx:249-252 | Any series of checkbox clicks keeps a list without repeats free of repeats. |
| Settings.ToggleSequenceStaysInWeek | src/pages/admin/Settings.tsx:246-252 | The checkboxes offer only the seven week days, so from a list of week days any series of clicks leaves a list of week days. |
| Settings.InitialWorkingDaysNoDuplicates | src/pages/admin/Settings.tsx:26 | The initial Monday-to-Friday list has no repeats. |
| Settings.InitialFlagsOn | src/pages/admin/Settings.tsx:29-35 | The four notification switches start on and two-factor authentication starts off. |
| Settings.Click | src/pages/admin/Settings.tsx:281-372 | Each of the five switch handlers (lines 281, 301, 321, 341 and 372) is one click. A click negates the clicked switch's flag and leaves the other four flags alone. |
| Settings.ClickTwice | src/pages/admin/Settings.tsx:281-372 | Two clicks on the same switch leave every flag as it was. |
| Settings.ClicksCommute | src/pages/admin/Settings.tsx:281-372 | Clicks on two switches give the same flags in either order. |

## Findings

| source | as written | input that shows it | evidently intended | confidence | as-written member | corrected member |
|---|---|---|---|---|---|---|
| src/components/Layout.tsx:21-28 | The guard tests `location.pathname.includes('/admin')`, which is case-sensitive. The routes it guards match case-insensitively (src/App.tsx:55-66). | An employee opens `/ADMIN/employees`. The admin employee list renders and the guard leaves them there. | The guard sees the path as the router does, so no path that renders an admin page lets an employee stay. | high; not executed | App.EmployeeStaysOnUpperCaseAdminPath | App.CaseInsensitiveGuardKeepsRoles |
| src/components/Layout.tsx:14-19 | The signed-out early return comes before `useEffect`, so the number of hooks a render calls depends on `user`. | Sign out from the sidebar on `/dashboard`. `setUser(null)` re-renders the mounted `Layout` with one hook fewer, and React throws instead of rendering the redirect. Only the later `window.location.replace('/login')` recovers. | Call `useEffect` before the early return and skip its checks while nobody is signed in. The hook list then stays fixed, and the signed-out render redirects to /login. | high; not executed | Layout.SignOutBreaksHookOrder | Layout.SignOutKeepsHookOrderFixed |

The corrected guard is `Layout.CaseInsensitiveGuard`. On a path without capital letters it decides exactly as `Layout.Guard` does. So every fact proved here about the seven page paths, the dashboards and the sidebar links holds for both guards. `Layout.Guard` stays the model of the code as written. The corrected render `Layout.LayoutRenderFixed` takes the guard's decision. So the second fix changes no decision; it only makes the signed-out decision reachable after a sign-out.

## Left out

- JSX rendering, styling, icons and animation. Only the values that decisions and lists produce are modelled.
- Router mechanics. A redirect is a returned `Decision` rather than a `navigate` call or a `<Navigate>` element, and `replace` history semantics are not modelled.
- Percent-escapes in a location are not decoded before matching. Only letter case and trailing slashes are normalised (`App.RouteForm`).
- The race between the login page's mount effect and its submit handler after a successful login is not modelled. The two are modelled separately, as `LoginPage.EntryRedirect` and `LoginPage.HandleSubmit`.
- The start-up effect's cache deletion (src/App.tsx:83-89) is browser I/O and is not modelled. Its 100 ms reload timer is modelled only as a second load (`App.Load`), and the clock reading is a parameter.
- Auth.Boot: this is the provider's rehydration alone. In the running app, `App`'s effect follows it on every load and deletes the record it read (`App.Start`). The restored user stays in memory, a second load restores nobody, and on an `/admin` path the reload finds no record and ends on /login.
- Auth.LoginThenRestart: this restores the user from login's storage through the provider alone. With `App`'s effect the user is restored for that load only, and the record is deleted straight away (`App.StartAfterLogin`).
- The 10 ms delay before logout completes is not modelled. Only its place, after all the clearing, is kept (`Complete`).
- The browser's refusal to submit the login form with an empty field (the `required` attributes at src/pages/Login.tsx:108 and 131) is not modelled. It is browser form validation.
- `useAuth`'s error when used outside the provider (src/context/AuthContext.tsx:13-19) is not modelled. It is a programming error, not a state.
- The login route's console message (src/App.tsx:27-40) is not modelled. It has no effect on state.
- Browser storage is two string-to-string maps, not the storage API.
- Codec.Decode: this decoder accepts exactly the form `Codec.Encode` writes, so it never accepts text that `JSON.parse` rejects. It is stricter in the other direction. Role texts other than "admin" and "employee" count as malformed. `JSON.parse` would also accept other well-formed JSON, such as reordered keys, whitespace, extra fields, an unknown role string, other escape spellings (`\/`, `\u0041`, upper-case hex digits), `-0`, a fraction or an exponent, or even `null` or a number. The source would then set such a value as the user rather than deleting the record.
- Auth.Rehydrate: because of the decoder above, a stored record that is well-formed JSON but not a serialised user is deleted, where the source would keep it and set it as the user.
- Types.User: the salary is an integer. JavaScript numbers are floating point, but every salary the source produces (75000) is integral.
- Text.Lower: this is ASCII lower-casing standing in for `toLowerCase`, with no Unicode case mapping.
- Text.LexLe: this is plain character-code lexicographic order standing in for `localeCompare`, with no locale collation.
- Employees.HandleSort: this accepts any field key. The page calls it only for name, position, status and joinDate. The sort handles every key, and any key that holds no string (such as `avatar`, which is always null) compares as equal.
- The roster page's search box and filter buttons only set the criteria state. The add-employee modal, export and import, the row menus and the pagination buttons perform no computation and are not modelled.
- The settings page's text inputs are plain setters and are not modelled. The save handler's 3-second success banner is a timer and is not modelled either.
- The other pages and files are not part of this model. These are the employee and admin dashboards, the department chart, attendance (geolocation and webcam), salary (PDF and spreadsheet export), profile, and the service worker (cache and network I/O).

=== FILE: app.dfy ===
/** The route table of `src/App.tsx` and what each path resolves to: `/` always
    goes to the login page, the seven page routes sit behind the `Layout` guard,
    and any other path goes to the login page or to the signed-in role's dashboard.
    Routes match case-insensitively and ignore trailing slashes, as the router
    does; the guard's own tests do neither. Also the start-up effect of `App`. */
module App {
  import opened Wrappers
  import opened Text
  import opened Types
  import opened Layout
  import LoginPage
  import Auth
  import Codec

  /** The seven pages nested under `Layout`. */
  datatype Page =
    | EmployeeDashboard | Attendance | Salary | Profile
    | AdminDashboard | AdminEmployees | AdminSettings

  function PagePath(p: Page): string {
    match p
    case EmployeeDashboard => "/dashboard"
    case Attendance => "/attendance"
    case Salary => "/salary"
    case Profile => "/profile"
    case AdminDashboard => "/admin/dashboard"
    case AdminEmployees => "/admin/employees"
    case AdminSettings => "/admin/settings"
  }

  // The fragment facts about the four employee page paths, one literal per lemma.

  lemma DashboardNotAdmin()
    ensures !Contains("/dashboard", "/admin")
  {
    OnlyLeadingSlash("/dashboard", "/admin", 1);
  }

  lemma DashboardNotProfile()
    ensures !Contains("/dashboard", "/profile")
  {
    OnlyLeadingSlash("/dashboard", "/profile", 1);
  }

  lemma AttendanceNotAdmin()
    ensures !Contains("/attendance", "/admin")
  {
    OnlyLeadingSlash("/attendance", "/admin", 2);
  }

  lemma AttendanceNotProfile()
    ensures !Contains("/attendance", "/profile")
  {
    OnlyLeadingSlash("/attendance", "/profile", 1);
  }

  lemma SalaryNotAdmin()
    ensures !Contains("/salary", "/admin")
  {
    OnlyLeadingSlash("/salary", "/admin", 1);
  }

  lemma SalaryNotProfile()
    ensures !Contains("/salary", "/profile")
  {
    OnlyLeadingSlash("/salary", "/profile", 1);
  }

  lemma ProfileNotAdmin()
    ensures !Contains("/profile", "/admin")
  {
    OnlyLeadingSlash("/profile", "/admin", 1);
  }

  lemma ProfileIsProfile()
    ensures Contains("/profile", "/profile")
  {
    PrefixContained("/profile", "");
    assert "/profile" + "" == "/profile";
  }

  lemma AdminDashboardInSection()
    ensures Contains("/admin/dashboard", "/admin")
  {
    PrefixContained("/admin", "/dashboard");
    assert "/admin" + "/dashboard" == "/admin/dashboard";
  }

  lemma AdminEmployeesInSection()
    ensures Contains("/admin/employees", "/admin")
  {
    PrefixContained("/admin", "/employees");
    assert "/admin" + "/employees" == "/admin/employees";
  }

  lemma AdminSettingsInSection()
    ensures Contains("/admin/settings", "/admin")
  {
    PrefixContained("/admin", "/settings");
    assert "/admin" + "/settings" == "/admin/settings";
  }

  /** The admin section is exactly the three admin pages: only their paths contain
      "/admin". Outside it, only the profile page's path contains "/profile". */
  lemma AdminSectionPages(p: Page)
    ensures Contains(PagePath(p), "/admin") <==> p in {AdminDashboard, AdminEmployees, AdminSettings}
    ensures p !in {AdminDashboard, AdminEmployees, AdminSettings} ==>
              (Contains(PagePath(p), "/profile") <==> p == Profile)
  {
    match p
    case EmployeeDashboard => DashboardNotAdmin(); DashboardNotProfile();
    case Attendance => AttendanceNotAdmin(); AttendanceNotProfile();
    case Salary => SalaryNotAdmin(); SalaryNotProfile();
    case Profile => ProfileNotAdmin(); ProfileIsProfile();
    case AdminDashboard => AdminDashboardInSection();
    case AdminEmployees => AdminEmployeesInSection();
    case AdminSettings => AdminSettingsInSection();
  }

  /** Which route element a path renders. */
  datatype Route = Root | LoginRoute | Guarded(page: Page) | CatchAll

  /** The form in which the router compares a location with the route paths: its
      matcher ignores letter case and trailing slashes, so both are dropped. */
  function RouteForm(path: string): string {
    Lower(StripTrailingSlashes(path))
  }

  /** A route path written in lower case without a trailing slash is its own route form. */
  lemma RouteFormOfRoutePath(s: string)
    requires forall i :: 0 <= i < |s| ==> !('A' <= s[i] <= 'Z')
    requires s != [] && s[|s| - 1] != '/'
    ensures RouteForm(s) == s
  {
    LowerOfLower(s);
  }

  /** Route matching: `/` takes any run of slashes alone, and every other route
      takes its own path in any letter case, with any number of trailing slashes. */
  function Match(path: string): (r: Route)
    ensures r == Root <==> path != [] && RouteForm(path) == []
    ensures r == LoginRoute <==> RouteForm(path) == "/login"
    ensures r.Guarded? ==> RouteForm(path) == PagePath(r.page)
    ensures r == CatchAll <==> (path == [] || RouteForm(path) != []) && RouteForm(path) != "/login" &&
                               forall p: Page :: PagePath(p) != RouteForm(path)
  {
    var form := RouteForm(path);
    if path != [] && form == [] then Root
    else if form == "/login" then LoginRoute
    else if form == "/dashboard" then Guarded(EmployeeDashboard)
    else if form == "/attendance" then Guarded(Attendance)
    else if form == "/salary" then Guarded(Salary)
    else if form == "/profile" then Guarded(Profile)
    else if form == "/admin/dashboard" then Guarded(AdminDashboard)
    else if form == "/admin/employees" then Guarded(AdminEmployees)
    else if form == "/admin/settings" then Guarded(AdminSettings)
    else CatchAll
  }

  /** `RoleBasedRedirect`: admins to the admin dashboard, anyone else to `/dashboard`. */
  function RoleBasedRedirect(user: Option<User>): (p: string)
    ensures user.Some? ==> p == HomePath(user.value.role)
    ensures user.None? ==> p == "/dashboard"
  {
    if user.Some? && user.value.role == Admin then "/admin/dashboard" else "/dashboard"
  }

  /** What rendering `path` decides for `user`. The login route defers to the
      login page's own redirect for a signed-in visitor. */
  function Resolve(user: Option<User>, path: string): (d: Decision)
    ensures Match(path) == Root ==> d == RedirectTo("/login", None)
    ensures Match(path).Guarded? ==> d == Guard(user, path)
    ensures Match(path) == CatchAll && user.None? ==> d == RedirectTo("/login", None)
    ensures Match(path) == CatchAll && user.Some? ==> d == RedirectTo(HomePath(user.value.role), None)
    ensures Match(path) == LoginRoute ==> d == LoginPage.EntryRedirect(user)
  {
    match Match(path)
    case Root => RedirectTo("/login", None)
    case LoginRoute => LoginPage.EntryRedirect(user)
    case Guarded(_) => Guard(user, path)
    case CatchAll => if user.Some? then RedirectTo(RoleBasedRedirect(user), None) else RedirectTo("/login", None)
  }

  /** Only the seven page routes consult the guard, reached by every path whose
      route form is a page path; the `/` and `/login` routes never do. */
  lemma OnlyPagesAreGuarded(path: string)
    ensures Match(path).Guarded? <==> exists p: Page :: PagePath(p) == RouteForm(path)
    ensures Match(path).Guarded? ==> RouteForm(path) != [] && RouteForm(path) != "/login"
  {
    if exists p: Page :: PagePath(p) == RouteForm(path) {
      var p: Page :| PagePath(p) == RouteForm(path);
      assert RouteForm(path) != [] && RouteForm(path) != "/login" by {
        match p
        case EmployeeDashboard =>
        case Attendance =>
        case Salary =>
        case Profile =>
        case AdminDashboard =>
        case AdminEmployees =>
        case AdminSettings =>
      }
    }
  }

  lemma PagePathIsRouteForm(p: Page)
    ensures RouteForm(PagePath(p)) == PagePath(p)
  {
    match p
    case EmployeeDashboard => RouteFormOfRoutePath("/dashboard");
    case Attendance => RouteFormOfRoutePath("/attendance");
    case Salary => RouteFormOfRoutePath("/salary");
    case Profile => RouteFormOfRoutePath("/profile");
    case AdminDashboard => RouteFormOfRoutePath("/admin/dashboard");
    case AdminEmployees => RouteFormOfRoutePath("/admin/employees");
    case AdminSettings => RouteFormOfRoutePath("/admin/settings");
  }

  /** Each page's own path renders that page. */
  lemma MatchPagePath(p: Page)
    ensures Match(PagePath(p)) == Guarded(p)
  {
    PagePathIsRouteForm(p);
  }

  lemma LoginPathMatches()
    ensures Match("/login") == LoginRoute
  {
    RouteFormOfRoutePath("/login");
  }

  /** A page passes the guard for a signed-in user exactly when the role policy permits it:
      admins see the admin pages and the profile page, employees the four employee pages. */
  lemma PageAllowed(u: User, p: Page)
    ensures Resolve(Some(u), PagePath(p)) == Allow <==>
            (if u.role == Admin then p in {AdminDashboard, AdminEmployees, AdminSettings, Profile}
             else p in {EmployeeDashboard, Attendance, Salary, Profile})
  {
    MatchPagePath(p);
    AdminSectionPages(p);
  }

  lemma HomeResolvesToAllow(u: User)
    ensures Resolve(Some(u), HomePath(u.role)) == Allow
  {
    HomeIsAllowed(u);
    MatchPagePath(if u.role == Admin then AdminDashboard else EmployeeDashboard);
  }

  lemma LoginResolvesToAllowWhenSignedOut()
    ensures Resolve(None, "/login") == Allow
  {
    LoginPathMatches();
  }

  /** Every redirect chain settles where nothing redirects again: one redirect
      does it, except that a signed-in visitor on the root route is sent to the
      login page, which sends them on to their dashboard, where the second
      redirect settles. */
  lemma EveryRedirectSettles(user: Option<User>, path: string)
    requires Resolve(user, path).RedirectTo?
    ensures var t := Resolve(user, path).target;
            Resolve(user, t) == Allow ||
            (Match(path) == Root && user.Some? && Resolve(user, t).RedirectTo? &&
             Resolve(user, Resolve(user, t).target) == Allow)
  {
    LoginPathMatches();
    if user.Some? {
      HomeResolvesToAllow(user.value);
      if Match(path).Guarded? {
        GuardRedirectSettles(user.value, path);
      }
    }
  }

  /** The catch-all destination of a signed-in user passes the guard for their role. */
  lemma CatchAllDestinationAllowed(u: User, path: string)
    requires Match(path) == CatchAll
    ensures Guard(Some(u), Resolve(Some(u), path).target) == Allow
  {
    HomeIsAllowed(u);
  }

  /** Nothing is decided while the provider is still loading, since no route renders. */
  function Render(s: Auth.AuthState, path: string): (d: Option<Decision>)
    ensures d.None? <==> s.loading
    ensures d.Some? ==> d.value == Resolve(s.user, path)
  {
    if s.loading then None else Some(Resolve(s.user, path))
  }

  /** The path the guard saves for a signed-out visitor is exactly where signing
      in returns them. */
  lemma SignInReturnsToSavedPath(s: Auth.AuthState, path: string, email: string, password: string, f: LoginPage.Form)
    requires path != ""
    ensures Guard(None, path) == RedirectTo("/login", Some(path))
    ensures LoginPage.HandleSubmit(f, Guard(None, path).from, LoginPage.Resolved(Auth.Login(s, email, password).1)).navigation
            == Some(path)
  {
  }

  /** Without a saved path, signing in lands on a page that allows the new user. */
  lemma SignInWithoutSavedPathSettles(s: Auth.AuthState, email: string, password: string, f: LoginPage.Form)
    ensures var (s1, u) := Auth.Login(s, email, password);
            var r := LoginPage.HandleSubmit(f, None, LoginPage.Resolved(u));
            r.navigation.Some? && Resolve(s1.user, r.navigation.value) == Allow
  {
    var (s1, u) := Auth.Login(s, email, password);
    HomeResolvesToAllow(u);
  }

  // ---------------------------------------------------------------- case variants

  /** The employee list's path with the admin segment in capitals. */
  const UpperCaseAdminPath: string := "/ADMIN/employees"

  lemma UpperCaseAdminNotAdmin()
    ensures !Contains(UpperCaseAdminPath, "/admin")
  {
    var s := UpperCaseAdminPath;
    forall i | 0 <= i <= |s| - 6
      ensures !OccursAt(s, "/admin", i)
    {
      assert s[i..i + 6][1] == s[i + 1];
      assert s[i..i + 6][0] == s[i];
      if i == 0 || i == 6 {
        assert s[i + 1] != 'a';
      } else {
        assert s[i] != '/' by {
          assert s[..6] == "/ADMIN" && s[7..] == "employees";
          if i < 6 {
            assert s[i] == s[..6][i];
          } else {
            assert s[i] == s[7..][i - 7];
          }
        }
      }
    }
    NoOccurrence(s, "/admin");
  }

  lemma UpperCaseAdminRouteForm()
    ensures RouteForm(UpperCaseAdminPath) == "/admin/employees"
  {
    var s := UpperCaseAdminPath;
    assert StripTrailingSlashes(s) == s;
    assert s == "/ADMIN" + "/employees";
    LowerAppend("/ADMIN", "/employees");
    LowerOfLower("/employees");
    assert Lower("/ADMIN") == "/admin" by {
      var l := Lower("/ADMIN");
      assert l[0] == '/' && l[1] == 'a' && l[2] == 'd' && l[3] == 'm' && l[4] == 'i' && l[5] == 'n';
    }
  }

  /** Any path whose route form is a page path renders that page. */
  lemma MatchByRouteForm(path: string, p: Page)
    requires path != [] && RouteForm(path) == PagePath(p)
    ensures Match(path) == Guarded(p)
  {
  }

  /** An employee may stay wherever a page renders and the path does not hold "/admin". */
  lemma EmployeeStaysWithoutFragment(u: User, path: string, p: Page)
    requires u.role == Employee
    requires path != [] && RouteForm(path) == PagePath(p) && !Contains(path, "/admin")
    ensures Resolve(Some(u), path) == Allow
  {
    MatchByRouteForm(path, p);
  }

  /** The router renders the employee list for `/ADMIN/employees`. */
  lemma UpperCaseAdminMatches()
    ensures Match(UpperCaseAdminPath) == Guarded(AdminEmployees)
  {
    UpperCaseAdminRouteForm();
    MatchByRouteForm(UpperCaseAdminPath, AdminEmployees);
  }

  /** As written, the router renders the employee list for `/ADMIN/employees`,
      while the guard's case-sensitive test lets an employee stay there. */
  lemma EmployeeStaysOnUpperCaseAdminPath(u: User)
    requires u.role == Employee
    ensures Match(UpperCaseAdminPath) == Guarded(AdminEmployees)
    ensures Resolve(Some(u), UpperCaseAdminPath) == Allow
  {
    UpperCaseAdminMatches();
    UpperCaseAdminNotAdmin();
    assert Resolve(Some(u), UpperCaseAdminPath) == Guard(Some(u), UpperCaseAdminPath);
  }

  /** A path whose route form is an admin page path holds "/admin" once lower-cased. */
  lemma AdminRouteFormLowersToAdmin(path: string, p: Page)
    requires RouteForm(path) == PagePath(p)
    requires p in {AdminDashboard, AdminEmployees, AdminSettings}
    ensures Contains(Lower(path), "/admin")
  {
    var stripped := StripTrailingSlashes(path);
    LowerPrefix(path, |stripped|);
    assert Lower(path)[..|stripped|] == PagePath(p);
    assert Lower(path)[..6] == PagePath(p)[..6] == "/admin";
  }

  /** With the case-insensitive guard, no path that renders an admin page lets an
      employee stay, and every path that renders an admin page or the profile page
      lets an admin stay. */
  lemma CaseInsensitiveGuardKeepsRoles(u: User, path: string)
    requires Match(path).Guarded?
    ensures u.role == Employee && Match(path).page in {AdminDashboard, AdminEmployees, AdminSettings} ==>
              CaseInsensitiveGuard(Some(u), path) == RedirectTo("/dashboard", None)
    ensures u.role == Admin && Match(path).page in {AdminDashboard, AdminEmployees, AdminSettings, Profile} ==>
              CaseInsensitiveGuard(Some(u), path) == Allow
  {
    var p := Match(path).page;
    if p in {AdminDashboard, AdminEmployees, AdminSettings} {
      AdminRouteFormLowersToAdmin(path, p);
    } else if p == Profile {
      var stripped := StripTrailingSlashes(path);
      LowerPrefix(path, |stripped|);
      assert Lower(path)[..|stripped|] == "/profile";
      assert Lower(path)[..8] == "/profile";
    }
  }

  /** A signed-out visitor either stays on the login page or is sent there. */
  lemma SignedOutEndsAtLogin(path: string)
    ensures Resolve(None, path) == Allow ==> Match(path) == LoginRoute
    ensures Resolve(None, path).RedirectTo? ==> Resolve(None, path).target == "/login"
  {
  }

  // ---------------------------------------------------------------- start-up

  /** The local-storage key of the start-up timestamp. */
  const TimestampKey := "app_version_timestamp"

  /** `App`'s mount effect. React runs a commit's passive effects children first, so
      it runs after the provider's rehydration: the user already restored stays in
      memory, while the stored record and the session store are wiped and the
      clock reading `now` is written down. */
  function Wipe(s: Auth.AuthState, now: int): (r: Auth.AuthState)
    ensures r.user == s.user && r.loading == s.loading
    ensures Auth.UserKey !in r.storage.local
    ensures TimestampKey in r.storage.local && r.storage.local[TimestampKey] == Codec.IntToString(now)
    ensures forall k :: k in s.storage.local && k != Auth.UserKey && k != TimestampKey ==>
              k in r.storage.local && r.storage.local[k] == s.storage.local[k]
    ensures r.storage.session == map[]
  {
    s.(storage := Auth.Storage((s.storage.local - {Auth.UserKey})[TimestampKey := Codec.IntToString(now)], map[]))
  }

  /** A page load: the provider mounts and rehydrates, then `App`'s effect wipes. */
  function Start(storage: Auth.Storage, now: int): (r: Auth.AuthState)
    ensures r.user == Auth.Boot(storage).user && !r.loading
    ensures Auth.UserKey !in r.storage.local && r.storage.session == map[]
  {
    Wipe(Auth.Boot(storage), now)
  }

  /** On a path containing "/admin", `App` reloads the page 100 ms after loading: a
      second load over the storage the first one left. */
  function Load(storage: Auth.Storage, path: string, now: int, later: int): (r: Auth.AuthState)
    ensures !Contains(path, "/admin") ==> r == Start(storage, now)
    ensures Contains(path, "/admin") ==> r.user == None && Auth.UserKey !in r.storage.local
  {
    var first := Start(storage, now);
    if Contains(path, "/admin") then Start(first.storage, later) else first
  }

  /** A start after signing in restores the user in memory, but its record is gone
      straight away, so the start after that restores nobody. */
  lemma StartAfterLogin(s: Auth.AuthState, email: string, password: string, now: int, later: int)
    ensures Start(Auth.Login(s, email, password).0.storage, now).user == Some(Auth.Login(s, email, password).1)
    ensures Auth.UserKey !in Start(Auth.Login(s, email, password).0.storage, now).storage.local
    ensures Start(Start(Auth.Login(s, email, password).0.storage, now).storage, later).user == None
  {
    Auth.LoginThenRestart(s, email, password);
  }

  /** Loading an admin page after signing in ends signed out, on the login page. */
  lemma AdminPageLoadEndsSignedOut(s: Auth.AuthState, email: string, password: string, path: string,
                                   now: int, later: int)
    requires Contains(path, "/admin")
    ensures var r := Load(Auth.Login(s, email, password).0.storage, path, now, later);
            r.user == None && Render(r, path) == Some(Resolve(None, path)) &&
            (Resolve(None, path) == Allow || Resolve(None, path).target == "/login")
  {
    SignedOutEndsAtLogin(path);
  }
}

=== FILE: auth.dfy ===
/** The session held by `AuthProvider` (`src/context/AuthContext.tsx`): the
    in-memory user, the `loading` gate, and the two browser stores, with the
    mock `login`, the `logout` clean-up and the rehydration effect as state
    transitions. Storage is an abstract map from keys to stored text. */
module Auth {
  import opened Wrappers
  import opened Text
  import opened Types
  import Codec

  /** The local-storage key holding the serialised user. */
  const UserKey := "emsUser"

  /** `localStorage` and `sessionStorage`. */
  datatype Storage = Storage(local: map<string, string>, session: map<string, string>)

  datatype AuthState = AuthState(user: Option<User>, loading: bool, storage: Storage)

  /** The provider as first mounted: nobody signed in, and loading, so that its
      children are not rendered yet; storage is as the browser kept it. */
  function Mount(storage: Storage): (s: AuthState)
    ensures s.user == None && s.loading
    ensures s.storage == storage
  {
    AuthState(None, true, storage)
  }

  // ---------------------------------------------------------------- login

  const PlaceholderId := "1"
  const PlaceholderName := "John Doe"
  const PlaceholderDepartment := "Engineering"
  const PlaceholderPosition := "Software Developer"
  const PlaceholderSalary := 75000

  /** The user the mock login fabricates from an email address. */
  function MockUser(email: string): (u: User)
    ensures u.email == email
    ensures u.role == Admin <==> exists i :: OccursAt(email, "admin", i)
    ensures u.id == PlaceholderId && u.name == PlaceholderName
    ensures u.department == PlaceholderDepartment && u.position == PlaceholderPosition
    ensures u.salary == PlaceholderSalary
  {
    ContainsIffOccurs(email, "admin");
    User(PlaceholderId, PlaceholderName, email,
         if Contains(email, "admin") then Admin else Employee,
         PlaceholderDepartment, PlaceholderPosition, PlaceholderSalary)
  }

  /** `login(email, password)`: never fails, ignores the password, stores the
      user's serialisation and makes it the current user. */
  function Login(s: AuthState, email: string, password: string): (r: (AuthState, User))
    ensures r.1 == MockUser(email)
    ensures r.0.user == Some(r.1)
    ensures r.0.storage.local == s.storage.local[UserKey := Codec.Encode(r.1)]
    ensures Codec.Decode(r.0.storage.local[UserKey]) == Some(r.1)
    ensures r.0.storage.session == s.storage.session
    ensures r.0.loading == s.loading
  {
    var u := MockUser(email);
    var stored := Codec.Encode(u);
    Codec.DecodeEncode(u);
    var local := s.storage.local[UserKey := stored];
    (AuthState(Some(u), s.loading, Storage(local, s.storage.session)), u)
  }

  /** The password plays no part in login. */
  lemma LoginIgnoresPassword(s: AuthState, email: string, p1: string, p2: string)
    ensures Login(s, email, p1) == Login(s, email, p2)
  {
  }

  // ---------------------------------------------------------------- logout

  /** The steps of `logout`, in order; `Complete` is the promise resolving after the delay. */
  datatype LogoutStep = ClearUser | RemoveRecord | ClearSessionStore | Complete

  const LogoutSteps: seq<LogoutStep> := [ClearUser, RemoveRecord, ClearSessionStore, Complete]

  function Step(s: AuthState, step: LogoutStep): AuthState {
    match step
    case ClearUser => s.(user := None)
    case RemoveRecord => s.(storage := s.storage.(local := s.storage.local - {UserKey}))
    case ClearSessionStore => s.(storage := s.storage.(session := map[]))
    case Complete => s
  }

  /** The state after performing `steps` in order. */
  function Run(s: AuthState, steps: seq<LogoutStep>): AuthState
    decreases |steps|
  {
    if steps == [] then s else Run(Step(s, steps[0]), steps[1..])
  }

  /** `logout()`: from any state, ends with no user, no stored record and an empty
      session store; every other local key and the loading flag are untouched. */
  function Logout(s: AuthState): (r: AuthState)
    ensures r.user == None
    ensures r.storage.local == s.storage.local - {UserKey}
    ensures r.storage.session == map[]
    ensures r.loading == s.loading
  {
    Run(s, LogoutSteps)
  }

  /** The user is cleared by the first step, before any storage work or completion. */
  lemma LogoutClearsUserFirst(s: AuthState)
    ensures Step(s, LogoutSteps[0]).user == None
  {
  }

  /** Everything `logout` does is done before it completes. */
  lemma LogoutDoneBeforeCompletion(s: AuthState)
    ensures LogoutSteps[|LogoutSteps| - 1] == Complete
    ensures Run(s, LogoutSteps[..|LogoutSteps| - 1]) == Logout(s)
  {
    var prefix := LogoutSteps[..|LogoutSteps| - 1];
    assert prefix == [ClearUser, RemoveRecord, ClearSessionStore];
    var s1 := Step(s, ClearUser);
    var s2 := Step(s1, RemoveRecord);
    var s3 := Step(s2, ClearSessionStore);
    assert prefix[1..] == [RemoveRecord, ClearSessionStore];
    assert prefix[1..][1..] == [ClearSessionStore];
    assert Run(s2, prefix[1..][1..]) == s3;
    assert Run(s, prefix) == s3;
    assert LogoutSteps[1..][1..][1..] == [Complete];
    assert Run(s3, [Complete]) == s3;
    assert Run(s, LogoutSteps) == s3;
  }

  /** Logging out twice is the same as logging out once. */
  lemma LogoutIdempotent(s: AuthState)
    ensures Logout(Logout(s)) == Logout(s)
  {
    var once := Logout(s);
    var twice := Logout(once);
    assert twice.storage.local == once.storage.local;
  }

  /** A logout button's work: the logout steps it awaits, then leaving the page. */
  datatype UiStep = Perform(step: LogoutStep) | ReplaceLocation(path: string)

  /** The session state after the logout steps among `steps`, in order. */
  function Effects(s: AuthState, steps: seq<UiStep>): AuthState
    decreases |steps|
  {
    if steps == [] then s
    else Effects(if steps[0].Perform? then Step(s, steps[0].step) else s, steps[1..])
  }

  lemma EffectsOfLogout(s: AuthState)
    ensures Effects(s, [Perform(ClearUser), Perform(RemoveRecord), Perform(ClearSessionStore), Perform(Complete)])
            == Logout(s)
  {
    var steps := [Perform(ClearUser), Perform(RemoveRecord), Perform(ClearSessionStore), Perform(Complete)];
    var s1 := Step(s, ClearUser);
    var s2 := Step(s1, RemoveRecord);
    var s3 := Step(s2, ClearSessionStore);
    assert steps[1..][1..][1..][1..] == [];
    assert Effects(s, steps) == s3;
    LogoutDoneBeforeCompletion(s);
  }

  /** `steps` leave for `path` as their last act, every earlier step is a logout
      step ending with its completion, and those steps amount to a full logout. */
  ghost predicate ClearsBeforeLeaving(steps: seq<UiStep>, path: string) {
    && |steps| >= 2
    && steps[|steps| - 1] == ReplaceLocation(path)
    && steps[|steps| - 2] == Perform(Complete)
    && (forall i :: 0 <= i < |steps| - 1 ==> steps[i].Perform?)
    && (forall s :: Effects(s, steps[..|steps| - 1]) == Logout(s))
  }

  /** `await logout(); window.location.replace(path)`: the location is replaced
      only after logout has completed, so by then the session is fully cleared. */
  function LogoutThenLeave(path: string): (r: seq<UiStep>)
    ensures ClearsBeforeLeaving(r, path)
  {
    var r := [Perform(ClearUser), Perform(RemoveRecord), Perform(ClearSessionStore), Perform(Complete),
              ReplaceLocation(path)];
    assert r[..|r| - 1] == [Perform(ClearUser), Perform(RemoveRecord), Perform(ClearSessionStore), Perform(Complete)];
    forall s
      ensures Effects(s, r[..|r| - 1]) == Logout(s)
    {
      EffectsOfLogout(s);
    }
    r
  }

  /** At the moment a logout button leaves the page, nobody is signed in and nothing is stored. */
  lemma LeavingFindsSessionCleared(steps: seq<UiStep>, path: string, s: AuthState)
    requires ClearsBeforeLeaving(steps, path)
    ensures Effects(s, steps[..|steps| - 1]).user == None
    ensures UserKey !in Effects(s, steps[..|steps| - 1]).storage.local
    ensures Effects(s, steps[..|steps| - 1]).storage.session == map[]
  {
    assert Effects(s, steps[..|steps| - 1]) == Logout(s);
  }

  // ---------------------------------------------------------------- rehydration

  /** The mount effect: read the stored record; if it is present and non-empty,
      decode it into the user, or delete it when it does not decode; then stop loading. */
  function Rehydrate(s: AuthState): (r: AuthState)
    ensures !r.loading
    ensures r.storage.session == s.storage.session
  {
    var next :=
      if UserKey in s.storage.local && s.storage.local[UserKey] != "" then
        match Codec.Decode(s.storage.local[UserKey])
        case Some(u) => s.(user := Some(u))
        case None => s.(storage := s.storage.(local := s.storage.local - {UserKey}))
      else s;
    next.(loading := false)
  }

  /** A fresh start of the provider over `storage`. */
  function Boot(storage: Storage): (r: AuthState)
    ensures !r.loading
    ensures UserKey !in storage.local ==> r.user == None && r.storage == storage
    ensures UserKey in storage.local && storage.local[UserKey] == "" ==> r.user == None && r.storage == storage
    ensures UserKey in storage.local && Codec.Decode(storage.local[UserKey]).Some? ==>
              r.user == Codec.Decode(storage.local[UserKey]) && r.storage == storage
    ensures UserKey in storage.local && storage.local[UserKey] != "" && Codec.Decode(storage.local[UserKey]).None? ==>
              r.user == None && r.storage.local == storage.local - {UserKey} && r.storage.session == storage.session
  {
    Rehydrate(Mount(storage))
  }

  /** A restart restores a user exactly when the record holds that user's
      serialisation; any other non-empty record is deleted. */
  lemma BootRestoresOnlyEncoded(storage: Storage, u: User)
    ensures Boot(storage).user == Some(u) <==>
              UserKey in storage.local && storage.local[UserKey] == Codec.Encode(u)
  {
    if UserKey in storage.local {
      Codec.DecodeExactlyEncode(storage.local[UserKey], u);
    }
  }

  /** Signing in and then restarting brings back the very user login returned. */
  lemma LoginThenRestart(s: AuthState, email: string, password: string)
    ensures Boot(Login(s, email, password).0.storage).user == Some(Login(s, email, password).1)
  {
    var (s1, u) := Login(s, email, password);
    assert UserKey in s1.storage.local;
    assert Codec.Decode(s1.storage.local[UserKey]) == Some(u);
  }

  /** Signing out and then restarting leaves nobody signed in. */
  lemma LogoutThenRestart(s: AuthState)
    ensures Boot(Logout(s).storage).user == None
  {
  }
}

=== FILE: codec.dfy ===
/** The serialised form of a `User` kept in local storage, standing in for
    `JSON.stringify` and `JSON.parse`. Encoding is total; decoding is partial:
    text that is not the canonical object form of a user decodes to `None`. */
module Codec {
  import opened Wrappers
  import opened Text
  import opened Types

  // ---------------------------------------------------------------- strings

  /** Characters below U+0020, which a JSON string may not hold unescaped. */
  predicate IsControl(c: char) {
    c as int < 0x20
  }

  /** The letter written after a backslash for the seven characters `JSON.stringify`
      escapes in short form. */
  function ShortEscape(c: char): (e: Option<char>)
    ensures e.Some? ==> c == '"' || c == '\\' || IsControl(c)
  {
    if c == '"' then Some('"')
    else if c == '\\' then Some('\\')
    else if c as int == 0x08 then Some('b')
    else if c as int == 0x0C then Some('f')
    else if c == '\n' then Some('n')
    else if c == '\r' then Some('r')
    else if c == '\t' then Some('t')
    else None
  }

  /** The character a short escape letter stands for. */
  function UnShort(e: char): Option<char> {
    if e == '"' then Some('"')
    else if e == '\\' then Some('\\')
    else if e == 'b' then Some(0x08 as char)
    else if e == 'f' then Some(0x0C as char)
    else if e == 'n' then Some('\n')
    else if e == 'r' then Some('\r')
    else if e == 't' then Some('\t')
    else None
  }

  /** Reading a short escape letter undoes writing it, and no other letter reads. */
  lemma UnShortInverse(c: char, e: char)
    ensures UnShort(e) == Some(c) <==> ShortEscape(c) == Some(e)
  {
  }

  predicate IsLowerHex(c: char) {
    '0' <= c <= '9' || 'a' <= c <= 'f'
  }

  /** A lower-case hexadecimal digit, as `JSON.stringify` writes them. */
  function HexDigit(d: nat): (c: char)
    requires d < 16
    ensures IsLowerHex(c)
  {
    if d < 10 then ('0' as int + d) as char else ('a' as int + d - 10) as char
  }

  function HexValue(c: char): (d: nat)
    requires IsLowerHex(c)
    ensures d < 16
  {
    if c <= '9' then c as int - '0' as int else c as int - 'a' as int + 10
  }

  lemma HexDigitValue(d: nat, c: char)
    requires d < 16 && IsLowerHex(c)
    ensures HexValue(HexDigit(d)) == d
    ensures HexDigit(HexValue(c)) == c
  {
  }

  /** How `JSON.stringify` writes one character of a string: a short escape for
      the quote, the backslash and five control characters, `\u00XX` for the other
      control characters, and the character itself otherwise. */
  function EscapeChar(c: char): (r: string)
    ensures r != [] && r[0] != '"'
    ensures r[0] == '\\' <==> ShortEscape(c).Some? || IsControl(c)
  {
    match ShortEscape(c)
    case Some(e) => ['\\', e]
    case None =>
      if IsControl(c) then ['\\', 'u', '0', '0', HexDigit(c as int / 16), HexDigit(c as int % 16)]
      else [c]
  }

  /** The body of a string literal, each character escaped as `JSON.stringify` does. */
  function Escape(s: string): string
    decreases |s|
  {
    if s == [] then [] else EscapeChar(s[0]) + Escape(s[1..])
  }

  /** A quoted string literal. */
  function Quote(s: string): string {
    "\"" + Escape(s) + "\""
  }

  /** Reads a `\u00XX` escape of a control character without a short form. */
  function ReadUnicode(s: string): (r: Option<char>)
    requires |s| >= 6
    ensures r.Some? ==> s[..6] == EscapeChar(r.value)
  {
    if s[0] == '\\' && s[1] == 'u' && s[2] == '0' && s[3] == '0' && IsLowerHex(s[4]) && IsLowerHex(s[5]) then
      var v := HexValue(s[4]) * 16 + HexValue(s[5]);
      if v < 0x20 && ShortEscape(v as char).None? then
        HexDigitValue(v / 16, s[4]);
        HexDigitValue(v % 16, s[5]);
        Some(v as char)
      else None
    else None
  }

  /** Reads one character of a string body and how much text it took. Only the
      form `EscapeChar` writes is accepted: an unknown escape, a `\u` escape that
      `JSON.stringify` would not write, and a raw control character are malformed. */
  function ReadChar(s: string): (r: Option<(char, nat)>)
    requires s != [] && s[0] != '"'
    ensures r.Some? ==> 1 <= r.value.1 <= |s| && s[..r.value.1] == EscapeChar(r.value.0)
  {
    if s[0] == '\\' then
      if |s| < 2 then None
      else match UnShort(s[1])
        case Some(c) =>
          UnShortInverse(c, s[1]);
          Some((c, 2))
        case None =>
          if |s| < 6 then None
          else
            var c :- ReadUnicode(s);
            Some((c, 6))
    else if IsControl(s[0]) then None
    else Some((s[0], 1))
  }

  lemma EscapeCons(c: char, s: string)
    ensures Escape([c] + s) == EscapeChar(c) + Escape(s)
  {
    assert ([c] + s)[1..] == s;
  }

  /** Reads the body of a string literal up to its closing quote, undoing escapes;
      returns the text and what follows the closing quote. Only the form `Escape`
      writes is read: the text read, written back, is exactly the text consumed. */
  function ParseStringBody(s: string): (r: Option<(string, string)>)
    ensures r.Some? ==> s == Escape(r.value.0) + "\"" + r.value.1
    decreases |s|
  {
    if |s| == 0 then None
    else if s[0] == '"' then
      assert s == "\"" + s[1..];
      Some(([], s[1..]))
    else
      var (c, n) :- ReadChar(s);
      var (body, rest) :- ParseStringBody(s[n..]);
      EscapeCons(c, body);
      assert s == s[..n] + s[n..];
      Some(([c] + body, rest))
  }

  /** Consumes the fixed text `lit` at the front of `s`. */
  function Expect(lit: string, s: string): (r: Option<string>)
    ensures r.Some? <==> StartsWith(s, lit)
    ensures r.Some? ==> s == lit + r.value
  {
    if StartsWith(s, lit) then Some(s[|lit|..]) else None
  }

  function ParseString(s: string): Option<(string, string)> {
    var body :- Expect("\"", s);
    ParseStringBody(body)
  }

  /** A written character reads back as itself, taking exactly the text written. */
  lemma ReadCharEscape(c: char, t: string)
    ensures ReadChar(EscapeChar(c) + t) == Some((c, |EscapeChar(c)|))
  {
    var s := EscapeChar(c) + t;
    match ShortEscape(c)
    case Some(e) =>
      UnShortInverse(c, e);
      assert s[1] == e;
    case None =>
      if IsControl(c) {
        var v := c as int;
        HexDigitValue(v / 16, '0');
        HexDigitValue(v % 16, '0');
        assert s[1] == 'u' && s[4] == HexDigit(v / 16) && s[5] == HexDigit(v % 16);
        assert UnShort('u') == None;
        assert ReadUnicode(s) == Some(c) by {
          assert (v as char) == c;
        }
      }
  }

  lemma {:induction false} ParseStringBodyEscape(s: string, rest: string)
    ensures ParseStringBody(Escape(s) + "\"" + rest) == Some((s, rest))
    decreases |s|
  {
    if s != [] {
      ParseStringBodyEscape(s[1..], rest);
      var tail := Escape(s[1..]) + "\"" + rest;
      var w := EscapeChar(s[0]);
      assert Escape(s) + "\"" + rest == w + tail;
      ReadCharEscape(s[0], tail);
      assert (w + tail)[0] == w[0];
      assert (w + tail)[|w|..] == tail;
      assert [s[0]] + s[1..] == s;
    } else {
      assert (Escape(s) + "\"" + rest)[1..] == rest;
    }
  }

  /** A quoted string reads back as itself, whatever characters it holds. */
  lemma ParseStringQuote(s: string, rest: string)
    ensures ParseString(Quote(s) + rest) == Some((s, rest))
  {
    assert Quote(s) + rest == "\"" + (Escape(s) + "\"" + rest);
    ParseStringBodyEscape(s, rest);
  }

  /** Only a quoted string in the form `Quote` writes reads as a string. */
  lemma ParseStringCanonical(s: string)
    ensures ParseString(s).Some? ==> s == Quote(ParseString(s).value.0) + ParseString(s).value.1
  {
    if ParseString(s).Some? {
      assert s == "\"" + s[1..];
    }
  }

  // ---------------------------------------------------------------- numbers

  predicate IsDigit(c: char) {
    '0' <= c <= '9'
  }

  predicate AllDigits(s: string) {
    forall i :: 0 <= i < |s| ==> IsDigit(s[i])
  }

  function DigitChar(d: nat): (c: char)
    requires d < 10
    ensures IsDigit(c)
  {
    ('0' as int + d) as char
  }

  /** Decimal digits of `n`, without leading zeros. */
  function NatToString(n: nat): (r: string)
    ensures |r| > 0 && AllDigits(r)
    ensures n > 0 ==> r[0] != '0'
    ensures |r| > 1 ==> n >= 10
    decreases n
  {
    if n < 10 then [DigitChar(n)] else NatToString(n / 10) + [DigitChar(n % 10)]
  }

  function IntToString(n: int): string {
    if n < 0 then "-" + NatToString(-n) else NatToString(n)
  }

  /** Length of the run of digits at the front of `s`. */
  function DigitRun(s: string): (k: nat)
    ensures k <= |s|
    decreases |s|
  {
    if |s| > 0 && IsDigit(s[0]) then 1 + DigitRun(s[1..]) else 0
  }

  /** The number a string of decimal digits denotes. */
  function DigitsValue(d: string): nat
    requires AllDigits(d)
    decreases |d|
  {
    if d == [] then 0 else DigitsValue(d[..|d| - 1]) * 10 + (d[|d| - 1] as int - '0' as int)
  }

  /** Reads a maximal, non-empty run of digits; a leading zero may only stand alone,
      as the JSON number grammar demands. */
  function ParseNat(s: string): Option<(nat, string)> {
    var k := DigitRun(s);
    if k == 0 || (k > 1 && s[0] == '0') then None
    else
      assert AllDigits(s[..k]) by { DigitRunDigits(s); }
      Some((DigitsValue(s[..k]), s[k..]))
  }

  /** Reads an optionally negative integer in the form `JSON.stringify` writes it,
      so negative zero, which it writes as `0`, is malformed. */
  function ParseInt(s: string): Option<(int, string)> {
    if |s| > 0 && s[0] == '-' then
      var (n, rest) :- ParseNat(s[1..]);
      if n == 0 then None else Some((-(n as int), rest))
    else
      ParseNat(s)
  }

  lemma {:induction false} DigitRunDigits(s: string)
    ensures AllDigits(s[..DigitRun(s)])
    decreases |s|
  {
    if |s| > 0 && IsDigit(s[0]) {
      DigitRunDigits(s[1..]);
      assert s[..DigitRun(s)] == [s[0]] + s[1..][..DigitRun(s[1..])];
    }
  }

  lemma {:induction false} DigitRunStops(d: string, rest: string)
    requires AllDigits(d)
    requires rest == [] || !IsDigit(rest[0])
    ensures DigitRun(d + rest) == |d|
    decreases |d|
  {
    if d != [] {
      assert (d + rest)[1..] == d[1..] + rest;
      DigitRunStops(d[1..], rest);
    }
  }

  lemma {:induction false} DigitsValueNatToString(n: nat)
    ensures DigitsValue(NatToString(n)) == n
    decreases n
  {
    if n >= 10 {
      var d := NatToString(n);
      assert d[..|d| - 1] == NatToString(n / 10);
      DigitsValueNatToString(n / 10);
    }
  }

  lemma {:induction false} DigitsValuePositive(d: string)
    requires AllDigits(d) && d != [] && d[0] != '0'
    ensures DigitsValue(d) >= 1
    decreases |d|
  {
    if |d| > 1 {
      DigitsValuePositive(d[..|d| - 1]);
    }
  }

  /** A run of digits without a leading zero is the decimal form of its value. */
  lemma {:induction false} NatToStringDigitsValue(d: string)
    requires AllDigits(d) && d != [] && (|d| == 1 || d[0] != '0')
    ensures NatToString(DigitsValue(d)) == d
    decreases |d|
  {
    var last := d[|d| - 1] as int - '0' as int;
    if |d| == 1 {
      assert d[..0] == [];
    } else {
      var p := d[..|d| - 1];
      DigitsValuePositive(p);
      NatToStringDigitsValue(p);
      var n := DigitsValue(d);
      assert n / 10 == DigitsValue(p) && n % 10 == last;
      assert d == p + [d[|d| - 1]];
    }
  }

  /** Only the decimal form `NatToString` writes reads as a number. */
  lemma ParseNatCanonical(s: string)
    ensures ParseNat(s).Some? ==> s == NatToString(ParseNat(s).value.0) + ParseNat(s).value.1
  {
    var k := DigitRun(s);
    if ParseNat(s).Some? {
      DigitRunDigits(s);
      NatToStringDigitsValue(s[..k]);
      assert s == s[..k] + s[k..];
    }
  }

  /** Only the form `IntToString` writes reads as an integer. */
  lemma ParseIntCanonical(s: string)
    ensures ParseInt(s).Some? ==> s == IntToString(ParseInt(s).value.0) + ParseInt(s).value.1
  {
    if |s| > 0 && s[0] == '-' {
      ParseNatCanonical(s[1..]);
      assert s == "-" + s[1..];
    } else {
      ParseNatCanonical(s);
    }
  }

  /** A written number reads back as itself when a non-digit follows it. */
  lemma ParseIntRoundTrip(n: int, rest: string)
    requires rest == [] || !IsDigit(rest[0])
    ensures ParseInt(IntToString(n) + rest) == Some((n, rest))
  {
    var m: nat := if n < 0 then -n else n;
    var d := NatToString(m);
    DigitRunStops(d, rest);
    assert (d + rest)[..|d|] == d;
    assert (d + rest)[|d|..] == rest;
    DigitsValueNatToString(m);
    if n < 0 {
      assert ("-" + d + rest)[1..] == d + rest;
    } else {
      assert (d + rest)[0] == d[0];
    }
  }

  // ---------------------------------------------------------------- users

  const IdKey := "{\"id\":"
  const NameKey := ",\"name\":"
  const EmailKey := ",\"email\":"
  const RoleKey := ",\"role\":"
  const DepartmentKey := ",\"department\":"
  const PositionKey := ",\"position\":"
  const SalaryKey := ",\"salary\":"
  const Close := "}"

  function ParseRole(s: string): Option<Role> {
    if s == "admin" then Some(Admin)
    else if s == "employee" then Some(Employee)
    else None
  }

  /** One member of the object: its key text, then a quoted string. */
  function Field(key: string, s: string): Option<(string, string)> {
    var body :- Expect(key, s);
    ParseString(body)
  }

  lemma FieldRoundTrip(key: string, v: string, rest: string)
    ensures Field(key, key + (Quote(v) + rest)) == Some((v, rest))
  {
    ExpectPrefix(key, Quote(v) + rest);
    ParseStringQuote(v, rest);
  }

  /** The members after the role: department, position, salary and the closing brace. */
  function EncodeTail(u: User): string {
    DepartmentKey + (Quote(u.department) +
    (PositionKey + (Quote(u.position) +
    (SalaryKey + (IntToString(u.salary) + Close)))))
  }

  /** The stored text of a user: a JSON object with the fields in declaration order.
      It is never empty, so the rehydration's truthiness test always sees it. */
  function Encode(u: User): (r: string)
    ensures r != [] && r[0] == '{'
  {
    IdKey + (Quote(u.id) +
    (NameKey + (Quote(u.name) +
    (EmailKey + (Quote(u.email) +
    (RoleKey + (Quote(RoleName(u.role)) + EncodeTail(u))))))))
  }

  /** The identifying members read from the front of stored text. */
  datatype Head = Head(id: string, name: string, email: string, role: Role)

  function DecodeHead(s: string): Option<(Head, string)> {
    var (id, s1) :- Field(IdKey, s);
    var (name, s2) :- Field(NameKey, s1);
    var (email, s3) :- Field(EmailKey, s2);
    var (roleText, s4) :- Field(RoleKey, s3);
    var role :- ParseRole(roleText);
    Some((Head(id, name, email, role), s4))
  }

  /** The remaining members, which must end the text. */
  function DecodeTail(s: string): Option<(string, string, int)> {
    var (department, s1) :- Field(DepartmentKey, s);
    var (position, s2) :- Field(PositionKey, s1);
    var s3 :- Expect(SalaryKey, s2);
    var (salary, s4) :- ParseInt(s3);
    var s5 :- Expect(Close, s4);
    if s5 == [] then Some((department, position, salary)) else None
  }

  /** Reads stored text back into a user; `None` when the text is malformed. Only
      text that opens with the id member can decode. */
  function Decode(s: string): (r: Option<User>)
    ensures r.Some? ==> StartsWith(s, IdKey)
  {
    var (h, rest) :- DecodeHead(s);
    var (department, position, salary) :- DecodeTail(rest);
    Some(User(h.id, h.name, h.email, h.role, department, position, salary))
  }

  lemma ExpectPrefix(lit: string, rest: string)
    ensures Expect(lit, lit + rest) == Some(rest)
  {
    assert (lit + rest)[..|lit|] == lit;
    assert (lit + rest)[|lit|..] == rest;
  }

  lemma RoleNameParses(r: Role)
    ensures ParseRole(RoleName(r)) == Some(r)
  {
  }

  lemma DecodeHeadEncode(u: User)
    ensures DecodeHead(Encode(u)) == Some((Head(u.id, u.name, u.email, u.role), EncodeTail(u)))
  {
    var t4 := Quote(RoleName(u.role)) + EncodeTail(u);
    var t3 := Quote(u.email) + (RoleKey + t4);
    var t2 := Quote(u.name) + (EmailKey + t3);
    FieldRoundTrip(IdKey, u.id, NameKey + t2);
    FieldRoundTrip(NameKey, u.name, EmailKey + t3);
    FieldRoundTrip(EmailKey, u.email, RoleKey + t4);
    FieldRoundTrip(RoleKey, RoleName(u.role), EncodeTail(u));
    RoleNameParses(u.role);
  }

  lemma DecodeTailEncode(u: User)
    ensures DecodeTail(EncodeTail(u)) == Some((u.department, u.position, u.salary))
  {
    var t3 := IntToString(u.salary) + Close;
    var t2 := Quote(u.position) + (SalaryKey + t3);
    FieldRoundTrip(DepartmentKey, u.department, PositionKey + t2);
    FieldRoundTrip(PositionKey, u.position, SalaryKey + t3);
    ExpectPrefix(SalaryKey, t3);
    ParseIntRoundTrip(u.salary, Close);
    ExpectPrefix(Close, []);
    assert Close + [] == Close;
  }

  /** Every user survives storage: decoding the encoding gives the same user back. */
  lemma DecodeEncode(u: User)
    ensures Decode(Encode(u)) == Some(u)
  {
    DecodeHeadEncode(u);
    DecodeTailEncode(u);
  }

  lemma FieldCanonical(key: string, s: string)
    ensures Field(key, s).Some? ==> s == key + (Quote(Field(key, s).value.0) + Field(key, s).value.1)
  {
    if StartsWith(s, key) {
      ParseStringCanonical(s[|key|..]);
    }
  }

  lemma ParseRoleCanonical(t: string)
    ensures ParseRole(t).Some? ==> t == RoleName(ParseRole(t).value)
  {
  }

  lemma DecodeTailCanonical(s: string, u: User)
    requires DecodeTail(s) == Some((u.department, u.position, u.salary))
    ensures s == EncodeTail(u)
  {
    var (department, s1) := Field(DepartmentKey, s).value;
    var (position, s2) := Field(PositionKey, s1).value;
    var s3 := Expect(SalaryKey, s2).value;
    var (salary, s4) := ParseInt(s3).value;
    assert department == u.department && position == u.position && salary == u.salary;
    assert s4 == Close + [];
    ParseIntCanonical(s3);
    assert s2 == SalaryKey + (IntToString(u.salary) + Close);
    FieldCanonical(PositionKey, s1);
    FieldCanonical(DepartmentKey, s);
  }

  lemma DecodeHeadCanonical(s: string, h: Head, rest: string)
    requires DecodeHead(s) == Some((h, rest))
    ensures s == IdKey + (Quote(h.id) + (NameKey + (Quote(h.name) + (EmailKey + (Quote(h.email) +
                 (RoleKey + (Quote(RoleName(h.role)) + rest)))))))
  {
    var (id, s1) := Field(IdKey, s).value;
    var (name, s2) := Field(NameKey, s1).value;
    var (email, s3) := Field(EmailKey, s2).value;
    var (roleText, s4) := Field(RoleKey, s3).value;
    FieldCanonical(IdKey, s);
    FieldCanonical(NameKey, s1);
    FieldCanonical(EmailKey, s2);
    FieldCanonical(RoleKey, s3);
    ParseRoleCanonical(roleText);
  }

  /** Only the text `Encode` writes decodes: decoding and then encoding gives back
      the very text that was read. */
  lemma DecodeCanonical(s: string)
    ensures Decode(s).Some? ==> s == Encode(Decode(s).value)
  {
    if Decode(s).Some? {
      var u := Decode(s).value;
      var (h, rest) := DecodeHead(s).value;
      var (department, position, salary) := DecodeTail(rest).value;
      assert u == User(h.id, h.name, h.email, h.role, department, position, salary);
      DecodeHeadCanonical(s, h, rest);
      DecodeTailCanonical(rest, u);
    }
  }

  /** Stored text decodes to a user exactly when it is that user's serialisation:
      `Decode` accepts the form `JSON.stringify` writes for a user and nothing else. */
  lemma DecodeExactlyEncode(s: string, u: User)
    ensures Decode(s) == Some(u) <==> s == Encode(u)
  {
    DecodeCanonical(s);
    DecodeEncode(u);
  }

  /** Spellings `JSON.parse` refuses are malformed here too: an unknown escape, a
      raw control character and a number with a leading zero. */
  lemma RejectsWhatParseRejects()
    ensures ReadChar("\\q\"") == None
    ensures ReadChar("\U{1}\"") == None
    ensures ParseInt("075000}") == None
  {
    assert DigitRun("075000}") > 1 by {
      assert DigitRun("75000}") >= 1;
    }
  }

  /** Text that is not an object, such as a truncated or foreign value, does not decode. */
  lemma DecodeRejectsNonObject(s: string)
    requires s == [] || s[0] != '{'
    ensures Decode(s) == None
  {
  }
}

=== FILE: employees.dfy ===
/** The roster query of the admin employee list (`src/pages/admin/Employees.tsx`):
    a case-insensitive search over four fields ANDed with a status filter, an
    optional stable sort on one field, the sort-header toggle, and the counts. */
module Employees {
  import opened Wrappers
  import opened Text

  /** A roster record. Every field the table can sort on is text. */
  datatype Employee = Employee(
    id: string,
    name: string,
    email: string,
    phone: string,
    position: string,
    department: string,
    status: string,
    joinDate: string)

  datatype Direction = Asc | Desc

  /** The current sort: a field key and a direction. */
  datatype Sort = Sort(field: string, direction: Direction)

  /** The search text, the status filter ("all", "active" or "inactive") and the sort. */
  datatype Criteria = Criteria(searchTerm: string, filterStatus: string, sort: Option<Sort>)

  // ---------------------------------------------------------------- filter

  /** The lower-cased term occurs in the lower-cased name, email, department or position.
      The phone number is not searched. */
  predicate MatchesSearch(e: Employee, term: string)
    ensures MatchesSearch(e, term) <==>
              (exists i :: OccursAt(Lower(e.name), Lower(term), i)) ||
              (exists i :: OccursAt(Lower(e.email), Lower(term), i)) ||
              (exists i :: OccursAt(Lower(e.department), Lower(term), i)) ||
              (exists i :: OccursAt(Lower(e.position), Lower(term), i))
  {
    var t := Lower(term);
    ContainsIffOccurs(Lower(e.name), t);
    ContainsIffOccurs(Lower(e.email), t);
    ContainsIffOccurs(Lower(e.department), t);
    ContainsIffOccurs(Lower(e.position), t);
    Contains(Lower(e.name), t) || Contains(Lower(e.email), t) ||
    Contains(Lower(e.department), t) || Contains(Lower(e.position), t)
  }

  /** The search ignores the case of the term. */
  lemma SearchIgnoresCase(e: Employee, term: string)
    ensures MatchesSearch(e, term) == MatchesSearch(e, Lower(term))
  {
    LowerIdempotent(term);
  }

  /** Status "all" passes every record; any other status passes exactly the records that have it. */
  predicate MatchesFilter(e: Employee, filterStatus: string)
    ensures filterStatus == "all" ==> MatchesFilter(e, filterStatus)
    ensures filterStatus != "all" ==> (MatchesFilter(e, filterStatus) <==> e.status == filterStatus)
  {
    filterStatus == "all" || e.status == filterStatus
  }

  /** A record is kept exactly when it passes both the search and the status filter;
      with an empty search, the status filter alone decides. */
  predicate Keep(e: Employee, c: Criteria)
    ensures Keep(e, c) <==> MatchesSearch(e, c.searchTerm) && MatchesFilter(e, c.filterStatus)
    ensures c.searchTerm == "" ==> (Keep(e, c) <==> MatchesFilter(e, c.filterStatus))
  {
    EmptySearchMatches(e);
    MatchesSearch(e, c.searchTerm) && MatchesFilter(e, c.filterStatus)
  }

  /** The records passing search and status, in roster order, each as often as in the roster. */
  function Filter(es: seq<Employee>, c: Criteria): (r: seq<Employee>)
    ensures IsSubsequence(r, es)
    ensures |r| <= |es|
    ensures forall i :: 0 <= i < |r| ==> Keep(r[i], c)
    ensures forall e :: multiset(r)[e] == if Keep(e, c) then multiset(es)[e] else 0
    decreases |es|
  {
    if es == [] then []
    else
      var rest := Filter(es[1..], c);
      FilterStep(es, c, rest);
      if Keep(es[0], c) then [es[0]] + rest else rest
  }

  /** One step of `Filter`: what holds of the tail's result holds of the whole. */
  lemma FilterStep(es: seq<Employee>, c: Criteria, rest: seq<Employee>)
    requires es != []
    requires IsSubsequence(rest, es[1..]) && |rest| <= |es| - 1
    requires forall i :: 0 <= i < |rest| ==> Keep(rest[i], c)
    requires forall e :: multiset(rest)[e] == if Keep(e, c) then multiset(es[1..])[e] else 0
    ensures var r := if Keep(es[0], c) then [es[0]] + rest else rest;
            IsSubsequence(r, es) && |r| <= |es| &&
            (forall i :: 0 <= i < |r| ==> Keep(r[i], c)) &&
            (forall e :: multiset(r)[e] == if Keep(e, c) then multiset(es)[e] else 0)
  {
    assert es == [es[0]] + es[1..];
    assert multiset(es) == multiset{es[0]} + multiset(es[1..]);
    if Keep(es[0], c) {
      var r := [es[0]] + rest;
      assert r[1..] == rest;
      assert multiset(r) == multiset{es[0]} + multiset(rest);
      assert forall i :: 0 < i < |r| ==> r[i] == rest[i - 1];
    }
  }

  /** The empty search term occurs in every field. */
  lemma EmptySearchMatches(e: Employee)
    ensures MatchesSearch(e, "")
  {
    assert Lower("") == "";
    assert StartsWith(Lower(e.name), "");
  }

  /** A filter that every record passes returns the roster unchanged. */
  lemma {:induction false} FilterKeepsAll(es: seq<Employee>, c: Criteria)
    requires forall i :: 0 <= i < |es| ==> Keep(es[i], c)
    ensures Filter(es, c) == es
    decreases |es|
  {
    if es != [] {
      FilterKeepsAll(es[1..], c);
    }
  }

  /** An empty search with status "all" shows the whole roster. */
  lemma EmptySearchAllStatus(es: seq<Employee>, sort: Option<Sort>)
    ensures Filter(es, Criteria("", "all", sort)) == es
  {
    forall i | 0 <= i < |es|
      ensures Keep(es[i], Criteria("", "all", sort))
    {
      EmptySearchMatches(es[i]);
    }
    FilterKeepsAll(es, Criteria("", "all", sort));
  }

  /** An empty search with a specific status keeps exactly the records with that status. */
  lemma EmptySearchByStatus(es: seq<Employee>, status: string, sort: Option<Sort>, e: Employee)
    requires status != "all"
    ensures e in Filter(es, Criteria("", status, sort)) <==> e in es && e.status == status
  {
    EmptySearchMatches(e);
    var r := Filter(es, Criteria("", status, sort));
    assert e in r <==> multiset(r)[e] > 0;
    assert e in es <==> multiset(es)[e] > 0;
  }

  // ---------------------------------------------------------------- sort

  /** The keys of a roster record that hold text. */
  const TextKeys: set<string> := {"id", "name", "email", "phone", "position", "department", "status", "joinDate"}

  /** A record's value under a sort key: the text of a string field, `None` for
      any key that holds no string, which then compares as equal to everything. */
  function FieldText(e: Employee, field: string): (r: Option<string>)
    ensures r.Some? <==> field in TextKeys
  {
    if field == "id" then Some(e.id)
    else if field == "name" then Some(e.name)
    else if field == "email" then Some(e.email)
    else if field == "phone" then Some(e.phone)
    else if field == "position" then Some(e.position)
    else if field == "department" then Some(e.department)
    else if field == "status" then Some(e.status)
    else if field == "joinDate" then Some(e.joinDate)
    else None
  }

  /** The comparator allows `a` before `b`: it returns zero or less. */
  predicate InOrder(s: Sort, a: Employee, b: Employee)
    ensures FieldText(a, s.field) == FieldText(b, s.field) ==> InOrder(s, a, b)
    ensures s.field !in TextKeys ==> InOrder(s, a, b)
  {
    KeyReflexive(FieldText(a, s.field));
    match (FieldText(a, s.field), FieldText(b, s.field))
    case (Some(x), Some(y)) => if s.direction == Asc then LexLe(x, y) else LexLe(y, x)
    case _ => true
  }

  lemma KeyReflexive(k: Option<string>)
    ensures k.Some? ==> LexLe(k.value, k.value)
  {
    if k.Some? {
      LexLeReflexive(k.value);
    }
  }

  /** A descending sort is the ascending one read backwards. */
  lemma DescendingReversesAscending(field: string, a: Employee, b: Employee)
    ensures InOrder(Sort(field, Desc), a, b) == InOrder(Sort(field, Asc), b, a)
  {
  }

  /** On a text key the comparator is transitive. */
  lemma InOrderTransitive(s: Sort, a: Employee, b: Employee, c: Employee)
    requires s.field in TextKeys
    requires InOrder(s, a, b) && InOrder(s, b, c)
    ensures InOrder(s, a, c)
  {
    var x, y, z := FieldText(a, s.field).value, FieldText(b, s.field).value, FieldText(c, s.field).value;
    if s.direction == Asc {
      LexLeTransitive(x, y, z);
    } else {
      LexLeTransitive(z, y, x);
    }
  }

  /** Every adjacent pair is in comparator order. */
  predicate Sorted(s: Sort, es: seq<Employee>) {
    forall i :: 0 <= i < |es| - 1 ==> InOrder(s, es[i], es[i + 1])
  }

  lemma InOrderTotal(s: Sort, a: Employee, b: Employee)
    ensures InOrder(s, a, b) || InOrder(s, b, a)
  {
    match (FieldText(a, s.field), FieldText(b, s.field))
    case (Some(x), Some(y)) => LexLeTotal(x, y);
    case _ =>
  }

  lemma SortedTail(s: Sort, ys: seq<Employee>)
    requires ys != [] && Sorted(s, ys)
    ensures Sorted(s, ys[1..])
  {
    forall i | 0 <= i < |ys| - 2
      ensures InOrder(s, ys[1..][i], ys[1..][i + 1])
    {
      assert InOrder(s, ys[i + 1], ys[i + 2]);
    }
  }

  lemma SortedCons(s: Sort, y: Employee, rest: seq<Employee>)
    requires Sorted(s, rest) && (rest == [] || InOrder(s, y, rest[0]))
    ensures Sorted(s, [y] + rest)
  {
    var r := [y] + rest;
    forall i | 0 <= i < |r| - 1
      ensures InOrder(s, r[i], r[i + 1])
    {
      if i > 0 {
        assert r[i] == rest[i - 1] && r[i + 1] == rest[i];
      }
    }
  }

  /** Places `x` before the first record it may precede; records it passes over
      sort strictly before it. */
  function Insert(s: Sort, x: Employee, ys: seq<Employee>): (r: seq<Employee>)
    ensures |r| == |ys| + 1
    ensures multiset(r) == multiset(ys) + multiset{x}
    ensures r[0] == x || (ys != [] && r[0] == ys[0])
    ensures Sorted(s, ys) ==> Sorted(s, r)
    decreases |ys|
  {
    if ys == [] then [x]
    else if InOrder(s, x, ys[0]) then
      InsertHereSorted(s, x, ys);
      [x] + ys
    else
      var rest := Insert(s, x, ys[1..]);
      InsertPassStep(s, x, ys, rest);
      [ys[0]] + rest
  }

  lemma InsertHereSorted(s: Sort, x: Employee, ys: seq<Employee>)
    requires ys != [] && InOrder(s, x, ys[0])
    ensures Sorted(s, ys) ==> Sorted(s, [x] + ys)
  {
    if Sorted(s, ys) {
      SortedCons(s, x, ys);
    }
  }

  /** The step of `Insert` where `x` passes over the head of `ys`. */
  lemma InsertPassStep(s: Sort, x: Employee, ys: seq<Employee>, rest: seq<Employee>)
    requires ys != [] && !InOrder(s, x, ys[0])
    requires |rest| == |ys| && multiset(rest) == multiset(ys[1..]) + multiset{x}
    requires rest[0] == x || (|ys| > 1 && rest[0] == ys[1])
    requires Sorted(s, ys[1..]) ==> Sorted(s, rest)
    ensures var r := [ys[0]] + rest;
            |r| == |ys| + 1 && multiset(r) == multiset(ys) + multiset{x} &&
            (Sorted(s, ys) ==> Sorted(s, r))
  {
    InOrderTotal(s, x, ys[0]);
    assert ys == [ys[0]] + ys[1..];
    assert multiset([ys[0]] + rest) == multiset{ys[0]} + multiset(rest);
    if Sorted(s, ys) {
      SortedTail(s, ys);
      if |ys| > 1 {
        assert InOrder(s, ys[0], ys[1]);
      }
      SortedCons(s, ys[0], rest);
    }
  }

  /** Stable sort: insertion from the back, each record going ahead of the equal ones after it. */
  function SortBy(s: Sort, es: seq<Employee>): (r: seq<Employee>)
    ensures |r| == |es|
    ensures multiset(r) == multiset(es)
    ensures Sorted(s, r)
    decreases |es|
  {
    if es == [] then []
    else
      assert es == [es[0]] + es[1..];
      Insert(s, es[0], SortBy(s, es[1..]))
  }

  /** The records whose sort key is `k`, in order. */
  function WithKey(es: seq<Employee>, field: string, k: Option<string>): seq<Employee>
    decreases |es|
  {
    if es == [] then []
    else (if FieldText(es[0], field) == k then [es[0]] else []) + WithKey(es[1..], field, k)
  }

  lemma WithKeyCons(x: Employee, ys: seq<Employee>, field: string, k: Option<string>)
    ensures WithKey([x] + ys, field, k) == (if FieldText(x, field) == k then [x] else []) + WithKey(ys, field, k)
  {
    assert ([x] + ys)[1..] == ys;
  }

  lemma {:induction false} InsertStable(s: Sort, x: Employee, ys: seq<Employee>, k: Option<string>)
    ensures WithKey(Insert(s, x, ys), s.field, k)
            == (if FieldText(x, s.field) == k then [x] else []) + WithKey(ys, s.field, k)
    decreases |ys|
  {
    if ys == [] {
      WithKeyCons(x, [], s.field, k);
    } else if InOrder(s, x, ys[0]) {
      WithKeyCons(x, ys, s.field, k);
    } else {
      InsertStable(s, x, ys[1..], k);
      InsertPassesStable(s, x, ys, k);
    }
  }

  lemma InsertPasses(s: Sort, x: Employee, ys: seq<Employee>)
    requires ys != [] && !InOrder(s, x, ys[0])
    ensures Insert(s, x, ys) == [ys[0]] + Insert(s, x, ys[1..])
  {
  }

  /** The step of `InsertStable` where `x` passes over the head of `ys`: the head's
      key differs from `x`'s, so at most one of the two joins the key's records. */
  lemma InsertPassesStable(s: Sort, x: Employee, ys: seq<Employee>, k: Option<string>)
    requires ys != [] && !InOrder(s, x, ys[0])
    requires WithKey(Insert(s, x, ys[1..]), s.field, k)
             == (if FieldText(x, s.field) == k then [x] else []) + WithKey(ys[1..], s.field, k)
    ensures WithKey(Insert(s, x, ys), s.field, k)
            == (if FieldText(x, s.field) == k then [x] else []) + WithKey(ys, s.field, k)
  {
    var f := s.field;
    var y, tail := ys[0], ys[1..];
    var hx := if FieldText(x, f) == k then [x] else [];
    var hy := if FieldText(y, f) == k then [y] else [];
    var rest := Insert(s, x, tail);
    InsertPasses(s, x, ys);
    WithKeyCons(y, rest, f, k);
    assert ys == [y] + tail;
    WithKeyCons(y, tail, f, k);
    PrefixSwap(hx, hy, WithKey(tail, f, k));
  }

  /** Two prefixes, one of them empty, can be laid down in either order. */
  lemma PrefixSwap(hx: seq<Employee>, hy: seq<Employee>, t: seq<Employee>)
    requires hx == [] || hy == []
    ensures hy + (hx + t) == hx + (hy + t)
  {
    if hx == [] {
      assert hx + t == t;
      assert hx + (hy + t) == hy + t;
    } else {
      assert hy + (hx + t) == hx + t;
      assert hy + t == t;
    }
  }

  /** The sort is stable: records sharing a key keep their relative order. */
  lemma {:induction false} SortStable(s: Sort, es: seq<Employee>, k: Option<string>)
    ensures WithKey(SortBy(s, es), s.field, k) == WithKey(es, s.field, k)
    decreases |es|
  {
    if es != [] {
      SortStable(s, es[1..], k);
      InsertStable(s, es[0], SortBy(s, es[1..]), k);
      WithKeyCons(es[0], es[1..], s.field, k);
      assert es == [es[0]] + es[1..];
    }
  }

  lemma {:induction false} WithKeyAll(es: seq<Employee>, field: string, k: Option<string>)
    requires forall i :: 0 <= i < |es| ==> FieldText(es[i], field) == k
    ensures WithKey(es, field, k) == es
    decreases |es|
  {
    if es != [] {
      WithKeyAll(es[1..], field, k);
    }
  }

  /** A key that is not a string field leaves the order untouched. */
  lemma SortOnNonTextFieldIsIdentity(s: Sort, es: seq<Employee>)
    requires forall e :: FieldText(e, s.field) == None
    ensures SortBy(s, es) == es
  {
    var r := SortBy(s, es);
    SortStable(s, es, None);
    WithKeyAll(es, s.field, None);
    WithKeyAll(r, s.field, None);
  }

  /** Ascending order leaves each record's field text no later than the next one's;
      descending, no earlier. */
  lemma SortedByText(s: Sort, es: seq<Employee>, i: int)
    requires Sorted(s, es) && 0 <= i < |es| - 1
    requires FieldText(es[i], s.field).Some?
    ensures s.direction == Asc ==> LexLe(FieldText(es[i], s.field).value, FieldText(es[i + 1], s.field).value)
    ensures s.direction == Desc ==> LexLe(FieldText(es[i + 1], s.field).value, FieldText(es[i], s.field).value)
  {
    assert InOrder(s, es[i], es[i + 1]);
  }

  /** On a text key, a sorted list is in order between any two positions, not only neighbours. */
  lemma {:induction false} SortedPairs(s: Sort, es: seq<Employee>, i: int, j: int)
    requires Sorted(s, es) && s.field in TextKeys
    requires 0 <= i <= j < |es|
    ensures InOrder(s, es[i], es[j])
    decreases j - i
  {
    if i < j {
      SortedPairs(s, es, i + 1, j);
      InOrderTransitive(s, es[i], es[i + 1], es[j]);
    }
  }

  lemma SortStableAllKeys(sort: Option<Sort>, es: seq<Employee>)
    ensures sort.Some? ==> forall k :: WithKey(SortBy(sort.value, es), sort.value.field, k) == WithKey(es, sort.value.field, k)
  {
    if sort.Some? {
      forall k
        ensures WithKey(SortBy(sort.value, es), sort.value.field, k) == WithKey(es, sort.value.field, k)
      {
        SortStable(sort.value, es, k);
      }
    }
  }

  /** The displayed list: the filter, then the sort when there is one. */
  function Query(es: seq<Employee>, c: Criteria): (r: seq<Employee>)
    ensures c.sort.None? ==> r == Filter(es, c)
    ensures c.sort.Some? ==> multiset(r) == multiset(Filter(es, c)) && Sorted(c.sort.value, r)
    ensures c.sort.Some? ==> forall k :: WithKey(r, c.sort.value.field, k) == WithKey(Filter(es, c), c.sort.value.field, k)
    ensures |r| <= |es|
    ensures forall e :: e in r <==> e in es && Keep(e, c)
  {
    var filtered := Filter(es, c);
    var r := if c.sort.Some? then SortBy(c.sort.value, filtered) else filtered;
    SortStableAllKeys(c.sort, filtered);
    forall e
      ensures e in r <==> e in es && Keep(e, c)
    {
      assert e in r <==> multiset(r)[e] > 0;
      assert e in filtered <==> multiset(filtered)[e] > 0;
      assert e in es <==> multiset(es)[e] > 0;
    }
    r
  }

  // ---------------------------------------------------------------- sort toggle

  function Flip(d: Direction): Direction {
    match d
    case Asc => Desc
    case Desc => Asc
  }

  /** `handleSort(field)`: the current field flips direction; any other field starts ascending. */
  function HandleSort(current: Option<Sort>, field: string): (r: Sort)
    ensures r.field == field
    ensures current.Some? && current.value.field == field ==> r.direction != current.value.direction
    ensures !(current.Some? && current.value.field == field) ==> r.direction == Asc
  {
    if current.Some? && current.value.field == field then Sort(field, Flip(current.value.direction))
    else Sort(field, Asc)
  }

  /** Two clicks on the current sort field restore the sort. */
  lemma SortClickTwice(s: Sort)
    ensures HandleSort(Some(HandleSort(Some(s), s.field)), s.field) == s
  {
  }

  // ---------------------------------------------------------------- counts

  function CountStatus(es: seq<Employee>, status: string): (n: nat)
    ensures n <= |es|
    decreases |es|
  {
    if es == [] then 0 else (if es[0].status == status then 1 else 0) + CountStatus(es[1..], status)
  }

  /** Counting a status gives the length of the list the status filter button shows. */
  lemma {:induction false} CountStatusIsFilter(es: seq<Employee>, status: string)
    requires status != "all"
    ensures CountStatus(es, status) == |Filter(es, Criteria("", status, None))|
    decreases |es|
  {
    if es != [] {
      CountStatusIsFilter(es[1..], status);
      assert Keep(es[0], Criteria("", status, None)) <==> es[0].status == status;
    }
  }

  datatype Stats = Stats(total: nat, active: nat, inactive: nat)

  /** The counts shown in the stats card, taken over the whole roster. */
  function EmployeeStats(es: seq<Employee>): (r: Stats)
    ensures r.total == |es|
    ensures r.active == |Filter(es, Criteria("", "active", None))|
    ensures r.inactive == |Filter(es, Criteria("", "inactive", None))|
    ensures r.active + r.inactive <= r.total
    ensures r.active + r.inactive == r.total <==>
            forall i :: 0 <= i < |es| ==> es[i].status == "active" || es[i].status == "inactive"
  {
    ActiveInactiveCover(es);
    CountStatusIsFilter(es, "active");
    CountStatusIsFilter(es, "inactive");
    Stats(|es|, CountStatus(es, "active"), CountStatus(es, "inactive"))
  }

  lemma {:induction false} ActiveInactiveCover(es: seq<Employee>)
    ensures CountStatus(es, "active") + CountStatus(es, "inactive") <= |es|
    ensures CountStatus(es, "active") + CountStatus(es, "inactive") == |es| <==>
            forall i :: 0 <= i < |es| ==> es[i].status == "active" || es[i].status == "inactive"
    decreases |es|
  {
    if es != [] {
      ActiveInactiveCover(es[1..]);
      assert "active" != "inactive";
      forall i | 1 <= i < |es|
        ensures es[i] == es[1..][i - 1]
      {
      }
    }
  }

  /** The five built-in records. */
  const MockRoster: seq<Employee> := [
    Employee("1", "John Doe", "john.doe@company.com", "+1 (555) 123-4567", "Software Developer", "Engineering", "active", "2023-01-15"),
    Employee("2", "Jane Smith", "jane.smith@company.com", "+1 (555) 987-6543", "UX Designer", "Design", "active", "2023-02-20"),
    Employee("3", "Michael Johnson", "michael.j@company.com", "+1 (555) 456-7890", "Project Manager", "Operations", "inactive", "2022-11-05"),
    Employee("4", "Sarah Williams", "sarah.w@company.com", "+1 (555) 789-0123", "Marketing Specialist", "Marketing", "active", "2023-03-10"),
    Employee("5", "Robert Brown", "robert.b@company.com", "+1 (555) 234-5678", "Financial Analyst", "Finance", "active", "2022-09-15")
  ]

  /** The stats card for the built-in roster reads five in total, four active and one inactive. */
  lemma MockRosterStats()
    ensures EmployeeStats(MockRoster) == Stats(5, 4, 1)
  {
    var es := MockRoster;
    assert es[4..][1..] == [];
    assert CountStatus(es[4..], "active") == 1 && CountStatus(es[4..], "inactive") == 0;
    assert es[3..][1..] == es[4..];
    assert CountStatus(es[3..], "active") == 2 && CountStatus(es[3..], "inactive") == 0;
    assert es[2..][1..] == es[3..];
    assert CountStatus(es[2..], "active") == 2 && CountStatus(es[2..], "inactive") == 1;
    assert es[1..][1..] == es[2..];
    assert CountStatus(es[1..], "active") == 3 && CountStatus(es[1..], "inactive") == 1;
  }

  /** The "Showing n of m" count never exceeds the roster size. */
  lemma ShownWithinTotal(es: seq<Employee>, c: Criteria)
    ensures |Query(es, c)| <= EmployeeStats(es).total
  {
  }
}

=== FILE: header.dfy ===
/** The page header of `src/components/Header.tsx`: the portal label, the page
    title and the menu target are derived from the current path alone. */
module Header {
  import opened Wrappers
  import opened Text
  import opened Types
  import opened Layout
  import App
  import Auth

  /** The header's "admin section" test: the path contains "/admin". */
  predicate IsAdminPortal(path: string) {
    Contains(path, "/admin")
  }

  /** The portal label: "Admin Portal" exactly on admin-section paths, "Employee Portal" elsewhere. */
  function PortalLabel(path: string): (t: string)
    ensures t in {"Admin Portal", "Employee Portal"}
    ensures t == "Admin Portal" <==> Contains(path, "/admin")
  {
    if IsAdminPortal(path) then "Admin Portal" else "Employee Portal"
  }

  /** On the seven page paths, the label reads "Admin Portal" exactly on the three admin pages. */
  lemma PortalLabelOnPages(p: App.Page)
    ensures PortalLabel(App.PagePath(p)) == "Admin Portal" <==>
            p in {App.AdminDashboard, App.AdminEmployees, App.AdminSettings}
  {
    App.AdminSectionPages(p);
  }

  /** The title tests, in the order they are tried. */
  const TitleRules: seq<(string, string)> := [
    ("/dashboard", "Dashboard"),
    ("/attendance", "Attendance"),
    ("/salary", "Salary"),
    ("/profile", "Profile"),
    ("/employees", "Employees"),
    ("/settings", "Settings")
  ]

  const DefaultTitle := "Dashboard"

  /** Rule `i` is the first whose fragment the path contains. */
  predicate FirstMatch(path: string, i: int) {
    0 <= i < |TitleRules| && Contains(path, TitleRules[i].0) &&
    forall j :: 0 <= j < i ==> !Contains(path, TitleRules[j].0)
  }

  /** `getPageTitle`: the title of the first rule whose fragment the path contains,
      or the default when none does. */
  function PageTitle(path: string): (t: string)
    ensures (exists i :: FirstMatch(path, i) && t == TitleRules[i].1) ||
            ((forall i :: 0 <= i < |TitleRules| ==> !Contains(path, TitleRules[i].0)) && t == DefaultTitle)
    ensures t in {"Dashboard", "Attendance", "Salary", "Profile", "Employees", "Settings"}
  {
    if Contains(path, "/dashboard") then
      assert FirstMatch(path, 0);
      "Dashboard"
    else if Contains(path, "/attendance") then
      assert FirstMatch(path, 1);
      "Attendance"
    else if Contains(path, "/salary") then
      assert FirstMatch(path, 2);
      "Salary"
    else if Contains(path, "/profile") then
      assert FirstMatch(path, 3);
      "Profile"
    else if Contains(path, "/employees") then
      assert FirstMatch(path, 4);
      "Employees"
    else if Contains(path, "/settings") then
      assert FirstMatch(path, 5);
      "Settings"
    else
      DefaultTitle
  }

  /** The earlier rule wins: an admin employee-list path that also names a dashboard is titled "Dashboard". */
  lemma EarlierRuleWins(before: string, middle: string, after: string)
    ensures PageTitle(before + "/dashboard" + middle + "/employees" + after) == "Dashboard"
  {
    assert before + "/dashboard" + middle + "/employees" + after
        == before + "/dashboard" + (middle + "/employees" + after);
    ContainsInfix(before, "/dashboard", middle + "/employees" + after);
  }

  /** The settings/profile item of the user menu. */
  function MenuTarget(path: string): (p: string)
    ensures IsAdminPortal(path) ==> p == App.PagePath(App.AdminSettings)
    ensures !IsAdminPortal(path) ==> p == App.PagePath(App.Profile)
  {
    if IsAdminPortal(path) then "/admin/settings" else "/profile"
  }

  /** On any page the guard lets a user stay on, the menu item opens a page they may also stay on. */
  lemma MenuTargetAllowed(u: User, path: string)
    requires Guard(Some(u), path) == Allow
    ensures App.Resolve(Some(u), MenuTarget(path)) == Allow
  {
    App.PageAllowed(u, App.AdminSettings);
    App.PageAllowed(u, App.Profile);
  }

  /** The label follows the path, not the role: an admin on the profile page,
      where the guard lets them stay, sees "Employee Portal". */
  lemma LabelFollowsPath(u: User)
    requires u.role == Admin
    ensures Guard(Some(u), "/profile") == Allow
    ensures PortalLabel("/profile") == "Employee Portal"
  {
    App.PageAllowed(u, App.Profile);
    App.AdminSectionPages(App.Profile);
  }

  /** The logout item: log out, wait for it, then go to the login page. */
  function HandleLogout(): (r: seq<Auth.UiStep>)
    ensures Auth.ClearsBeforeLeaving(r, "/login")
  {
    Auth.LogoutThenLeave("/login")
  }
}

=== FILE: layout.dfy ===
/** The protected-route guard of `src/components/Layout.tsx`: signed-out
    visitors are sent to the login page carrying the path they asked for; a
    signed-in user whose role does not belong on the path is sent to their
    dashboard. Path tests are substring containment, as `includes` is. */
module Layout {
  import opened Wrappers
  import opened Text
  import opened Types

  /** A routing decision: stay, or replace the location with `target`.
      `from` is the path saved for the login page to return to. */
  datatype Decision = Allow | RedirectTo(target: string, from: Option<string>)

  /** The dashboard each role lands on. */
  function HomePath(role: Role): string {
    match role
    case Admin => "/admin/dashboard"
    case Employee => "/dashboard"
  }

  /** The role policy: where a signed-in user may stay. Admins keep to the admin
      section and the shared profile page; employees keep out of the admin section. */
  predicate Permitted(role: Role, path: string) {
    match role
    case Admin => Contains(path, "/admin") || Contains(path, "/profile")
    case Employee => !Contains(path, "/admin")
  }

  /** The navigations the role effect issues, in the order its two checks run. */
  function RoleRedirects(role: Role, path: string): (r: seq<string>)
    ensures |r| <= 1
    ensures r == [] <==> Permitted(role, path)
    ensures r != [] ==> r == [HomePath(role)]
  {
    (if role == Admin && !Contains(path, "/admin") && !Contains(path, "/profile") then ["/admin/dashboard"] else [])
    + (if role == Employee && Contains(path, "/admin") then ["/dashboard"] else [])
  }

  /** The decision `Layout` takes for `user` at `path`. */
  function Guard(user: Option<User>, path: string): (d: Decision)
    ensures user.None? ==> d == RedirectTo("/login", Some(path))
    ensures user.Some? ==> (d == Allow <==> Permitted(user.value.role, path))
    ensures user.Some? && d != Allow ==> d == RedirectTo(HomePath(user.value.role), None)
  {
    if user.None? then RedirectTo("/login", Some(path))
    else
      var navigations := RoleRedirects(user.value.role, path);
      if navigations == [] then Allow else RedirectTo(navigations[|navigations| - 1], None)
  }

  lemma AdminHomeIsAdminPath()
    ensures Contains(HomePath(Admin), "/admin")
  {
    assert StartsWith(HomePath(Admin), "/admin");
  }

  lemma EmployeeHomeIsNotAdminPath()
    ensures !Contains(HomePath(Employee), "/admin")
  {
    OnlyLeadingSlash(HomePath(Employee), "/admin", 1);
  }

  /** Each role's dashboard is a fixed point of the guard. */
  lemma HomeIsAllowed(u: User)
    ensures Guard(Some(u), HomePath(u.role)) == Allow
  {
    AdminHomeIsAdminPath();
    EmployeeHomeIsNotAdminPath();
  }

  /** Following a guard redirect of a signed-in user lands where the guard allows them. */
  lemma GuardRedirectSettles(u: User, path: string)
    requires Guard(Some(u), path).RedirectTo?
    ensures Guard(Some(u), Guard(Some(u), path).target) == Allow
  {
    HomeIsAllowed(u);
  }

  /** The tests look anywhere in the path, not only at its start: an employee is
      turned away from any path with "/admin" inside it. */
  lemma EmployeeTurnedAwayAnywhere(u: User, before: string, after: string)
    requires u.role == Employee
    ensures Guard(Some(u), before + "/admin" + after) == RedirectTo("/dashboard", None)
  {
    ContainsInfix(before, "/admin", after);
  }

  /** An admin may stay on any path with "/admin" or "/profile" inside it. */
  lemma AdminAllowedAnywhere(u: User, before: string, after: string)
    requires u.role == Admin
    ensures Guard(Some(u), before + "/admin" + after) == Allow
    ensures Guard(Some(u), before + "/profile" + after) == Allow
  {
    ContainsInfix(before, "/admin", after);
    ContainsInfix(before, "/profile", after);
  }

  // ---------------------------------------------------------------- case-insensitive guard

  /** The guard with its path tests made case-insensitive, as the router's own
      matching is: the role policy is applied to the lower-cased path, and the
      path saved for the login page is the one asked for. */
  function CaseInsensitiveGuard(user: Option<User>, path: string): (d: Decision)
    ensures user.None? ==> d == RedirectTo("/login", Some(path))
    ensures user.Some? ==> (d == Allow <==> Permitted(user.value.role, Lower(path)))
    ensures user.Some? && d != Allow ==> d == RedirectTo(HomePath(user.value.role), None)
    ensures Lower(path) == path ==> d == Guard(user, path)
  {
    if user.None? then RedirectTo("/login", Some(path)) else Guard(user, Lower(path))
  }

  // ---------------------------------------------------------------- hook order

  /** The hooks a render of `Layout` calls. */
  datatype Hook = UseAuth | UseLocation | UseNavigate | UseRoleEffect

  /** One render: the hooks called, in call order, and the decision taken. */
  datatype Render = Render(hooks: seq<Hook>, decision: Decision)

  /** React's rule for a mounted component: each render calls the same hooks in
      the same order as the one before, or React throws instead of rendering. */
  predicate SameHooks(before: Render, after: Render) {
    before.hooks == after.hooks
  }

  /** A render as written: the signed-out early return comes before `useEffect`,
      so a render without a user calls one hook fewer than a render with one. */
  function LayoutRender(user: Option<User>, path: string): (r: Render)
    ensures |r.hooks| >= 3 && r.hooks[..3] == [UseAuth, UseLocation, UseNavigate]
    ensures UseRoleEffect in r.hooks <==> user.Some?
    ensures r.decision == Guard(user, path)
  {
    Render([UseAuth, UseLocation, UseNavigate] + (if user.Some? then [UseRoleEffect] else []),
           Guard(user, path))
  }

  /** Signing out while a guarded page is shown re-renders the mounted `Layout`
      without a user, and that render breaks the hook rule. */
  lemma SignOutBreaksHookOrder(u: User, path: string)
    ensures !SameHooks(LayoutRender(Some(u), path), LayoutRender(None, path))
  {
    assert UseRoleEffect in LayoutRender(Some(u), path).hooks;
  }

  /** A render with `useEffect` called before the early return, its role checks
      skipped while nobody is signed in: the hooks no longer depend on the user,
      and the decision is the guard's. */
  function LayoutRenderFixed(user: Option<User>, path: string): (r: Render)
    ensures r.hooks == [UseAuth, UseLocation, UseNavigate, UseRoleEffect]
    ensures r.decision == Guard(user, path)
  {
    Render([UseAuth, UseLocation, UseNavigate, UseRoleEffect], Guard(user, path))
  }

  /** With the effect hoisted, signing out re-renders `Layout` under the hook rule,
      and the render sends the visitor to the login page. */
  lemma SignOutKeepsHookOrderFixed(u: User, path: string)
    ensures SameHooks(LayoutRenderFixed(Some(u), path), LayoutRenderFixed(None, path))
    ensures LayoutRenderFixed(None, path).decision == RedirectTo("/login", Some(path))
  {
  }
}

=== FILE: login.dfy ===
/** The sign-in page of `src/pages/Login.tsx`: the redirect for a visitor who is
    already signed in, and the submit handler's error, busy flag and destination.
    The `login` call is an input here: it either resolves with a user or throws. */
module LoginPage {
  import opened Wrappers
  import opened Types
  import opened Layout

  const ErrorMessage := "Invalid email or password. Please try again."

  /** The page's `error` and `isLoading` state. */
  datatype Form = Form(error: string, isLoading: bool)

  /** What the awaited `login` call did. */
  datatype LoginOutcome = Resolved(user: User) | Threw

  /** The page's mount effect: a signed-in visitor is sent to their dashboard. */
  function EntryRedirect(user: Option<User>): (d: Decision)
    ensures user.None? <==> d == Allow
    ensures user.Some? ==> d == RedirectTo(HomePath(user.value.role), None)
  {
    if user.Some? then RedirectTo(HomePath(user.value.role), None) else Allow
  }

  /** The page renders nothing for a signed-in visitor: the form shows exactly
      when the mount effect leaves the visitor where they are. */
  predicate RendersForm(user: Option<User>)
    ensures RendersForm(user) <==> EntryRedirect(user) == Allow
  {
    user.None?
  }

  /** Where a successful sign-in goes: the saved path when there is a non-empty one,
      otherwise the signed-in role's dashboard. */
  function Destination(from: Option<string>, u: User): (p: string)
    ensures from.Some? && from.value != "" ==> p == from.value
    ensures from.None? || from.value == "" ==> p == HomePath(u.role)
    ensures p != ""
  {
    if from.Some? && from.value != "" then from.value else HomePath(u.role)
  }

  /** The start of `handleSubmit`: busy, and any earlier error cleared. */
  function SubmitStart(f: Form): (g: Form)
    ensures g.isLoading && g.error == ""
  {
    Form("", true)
  }

  datatype SubmitResult = SubmitResult(form: Form, navigation: Option<string>)

  /** The rest of `handleSubmit` once `login` has settled. */
  function SubmitFinish(f: Form, from: Option<string>, outcome: LoginOutcome): (r: SubmitResult)
    ensures !r.form.isLoading
    ensures outcome.Threw? ==> r.form.error == ErrorMessage && r.navigation == None
    ensures outcome.Resolved? ==> r.form.error == f.error && r.navigation == Some(Destination(from, outcome.user))
  {
    match outcome
    case Resolved(u) => SubmitResult(f.(isLoading := false), Some(Destination(from, u)))
    case Threw => SubmitResult(Form(ErrorMessage, false), None)
  }

  /** The whole submit: a success leaves no error and navigates; a failure shows
      the fixed message and stays; either way the page is no longer busy. */
  function HandleSubmit(f: Form, from: Option<string>, outcome: LoginOutcome): (r: SubmitResult)
    ensures !r.form.isLoading
    ensures outcome.Resolved? <==> r.navigation.Some?
    ensures outcome.Resolved? ==> r.form.error == "" && r.navigation.value == Destination(from, outcome.user)
    ensures outcome.Threw? ==> r.form.error == ErrorMessage
  {
    SubmitFinish(SubmitStart(f), from, outcome)
  }
}

=== FILE: settings.dfy ===
/** The state logic of the admin settings page (`src/pages/admin/Settings.tsx`):
    the working-day checkboxes, which toggle a day in an ordered list, and the
    notification and security switches, each of which negates one flag. */
module Settings {
  import opened Text

  // ---------------------------------------------------------------- working days

  /** The days the checkboxes offer, in display order. */
  const WeekDays: seq<string> := ["Monday", "Tuesday", "Wednesday", "Thursday", "Friday", "Saturday", "Sunday"]

  const InitialWorkingDays: seq<string> := ["Monday", "Tuesday", "Wednesday", "Thursday", "Friday"]

  /** No day is listed twice. */
  predicate NoDuplicates(days: seq<string>) {
    forall i, j :: 0 <= i < j < |days| ==> days[i] != days[j]
  }

  /** The list without any occurrence of `day`, the other days in their order. */
  function RemoveAll(days: seq<string>, day: string): (r: seq<string>)
    ensures day !in r
    ensures IsSubsequence(r, days)
    ensures forall d :: d != day ==> multiset(r)[d] == multiset(days)[d]
    decreases |days|
  {
    if days == [] then []
    else
      var rest := RemoveAll(days[1..], day);
      assert days == [days[0]] + days[1..];
      if days[0] == day then rest
      else
        assert ([days[0]] + rest)[1..] == rest;
        [days[0]] + rest
  }

  lemma {:induction false} RemoveAllKeepsNoDuplicates(days: seq<string>, day: string)
    requires NoDuplicates(days)
    ensures NoDuplicates(RemoveAll(days, day))
    decreases |days|
  {
    if days != [] {
      var tail := days[1..];
      assert NoDuplicates(tail) by {
        forall i, j | 0 <= i < j < |tail|
          ensures tail[i] != tail[j]
        {
          assert tail[i] == days[i + 1] && tail[j] == days[j + 1];
        }
      }
      RemoveAllKeepsNoDuplicates(tail, day);
      if days[0] != day {
        var rest := RemoveAll(tail, day);
        assert days[0] !in tail by {
          forall j | 0 <= j < |tail|
            ensures tail[j] != days[0]
          {
            assert tail[j] == days[j + 1];
          }
        }
        assert multiset(tail)[days[0]] == 0;
        assert multiset(rest)[days[0]] == 0;
        assert days[0] !in rest;
        var r := [days[0]] + rest;
        assert RemoveAll(days, day) == r;
        forall i, j | 0 <= i < j < |r|
          ensures r[i] != r[j]
        {
          if i == 0 {
            assert r[j] == rest[j - 1];
          } else {
            assert r[i] == rest[i - 1] && r[j] == rest[j - 1];
          }
        }
      }
    }
  }

  /** `handleWorkingDayToggle`: a listed day is removed, an unlisted one appended. */
  function ToggleDay(days: seq<string>, day: string): (r: seq<string>)
    ensures day in r <==> day !in days
    ensures forall d :: d != day ==> (d in r <==> d in days)
    ensures day in days ==> IsSubsequence(r, days) &&
                            forall d :: d != day ==> multiset(r)[d] == multiset(days)[d]
    ensures day !in days ==> r == days + [day]
  {
    if day in days then
      var r := RemoveAll(days, day);
      forall d | d != day
        ensures d in r <==> d in days
      {
        assert d in r <==> multiset(r)[d] > 0;
        assert d in days <==> multiset(days)[d] > 0;
      }
      r
    else
      days + [day]
  }

  lemma {:induction false} RemoveAbsent(days: seq<string>, day: string)
    requires day !in days
    ensures RemoveAll(days, day) == days
    decreases |days|
  {
    if days != [] {
      RemoveAbsent(days[1..], day);
    }
  }

  lemma {:induction false} RemoveAppended(days: seq<string>, day: string)
    ensures RemoveAll(days + [day], day) == RemoveAll(days, day)
    decreases |days|
  {
    if days == [] {
      assert ([] + [day])[1..] == [];
    } else {
      assert (days + [day])[1..] == days[1..] + [day];
      RemoveAppended(days[1..], day);
    }
  }

  /** Ticking an unticked day and then unticking it restores the list exactly. */
  lemma ToggleAbsentTwice(days: seq<string>, day: string)
    requires day !in days
    ensures ToggleDay(ToggleDay(days, day), day) == days
  {
    RemoveAppended(days, day);
    RemoveAbsent(days, day);
  }

  /** A list without repeats keeps that property under every toggle. */
  lemma ToggleKeepsNoDuplicates(days: seq<string>, day: string)
    requires NoDuplicates(days)
    ensures NoDuplicates(ToggleDay(days, day))
  {
    if day in days {
      RemoveAllKeepsNoDuplicates(days, day);
    } else {
      var r := days + [day];
      forall i, j | 0 <= i < j < |r|
        ensures r[i] != r[j]
      {
        if j == |days| {
          assert r[i] == days[i];
        }
      }
    }
  }

  /** From a list without repeats, any series of checkbox clicks keeps every day listed at most once. */
  lemma {:induction false} ToggleSequenceKeepsNoDuplicates(days: seq<string>, clicks: seq<string>)
    requires NoDuplicates(days)
    ensures NoDuplicates(ToggleAll(days, clicks))
    decreases |clicks|
  {
    if clicks != [] {
      ToggleKeepsNoDuplicates(days, clicks[0]);
      ToggleSequenceKeepsNoDuplicates(ToggleDay(days, clicks[0]), clicks[1..]);
    }
  }

  /** The checkboxes offer only the seven week days, so from a list of week days
      any series of clicks leaves a list of week days. */
  lemma {:induction false} ToggleSequenceStaysInWeek(days: seq<string>, clicks: seq<string>)
    requires forall d :: d in days ==> d in WeekDays
    requires forall i :: 0 <= i < |clicks| ==> clicks[i] in WeekDays
    ensures forall d :: d in ToggleAll(days, clicks) ==> d in WeekDays
    decreases |clicks|
  {
    if clicks != [] {
      var next := ToggleDay(days, clicks[0]);
      assert forall d :: d in next ==> d in WeekDays;
      ToggleSequenceStaysInWeek(next, clicks[1..]);
    }
  }

  /** The list after a series of checkbox clicks. */
  function ToggleAll(days: seq<string>, clicks: seq<string>): seq<string>
    decreases |clicks|
  {
    if clicks == [] then days else ToggleAll(ToggleDay(days, clicks[0]), clicks[1..])
  }

  lemma InitialWorkingDaysNoDuplicates()
    ensures NoDuplicates(InitialWorkingDays)
  {
  }

  // ---------------------------------------------------------------- switches

  /** The five on/off switches of the notification and security panels. */
  datatype Switch =
    | EmailNotifications | AttendanceReminders | LeaveUpdates | SalaryNotifications
    | TwoFactorAuth

  datatype Flags = Flags(
    emailNotifications: bool,
    attendanceReminders: bool,
    leaveUpdates: bool,
    salaryNotifications: bool,
    twoFactorAuth: bool)

  function Get(f: Flags, sw: Switch): bool {
    match sw
    case EmailNotifications => f.emailNotifications
    case AttendanceReminders => f.attendanceReminders
    case LeaveUpdates => f.leaveUpdates
    case SalaryNotifications => f.salaryNotifications
    case TwoFactorAuth => f.twoFactorAuth
  }

  /** The notification switches start on, two-factor authentication off. */
  const InitialFlags := Flags(true, true, true, true, false)

  lemma InitialFlagsOn(sw: Switch)
    ensures Get(InitialFlags, sw) <==> sw != TwoFactorAuth
  {
  }

  /** A click on a switch negates its flag and leaves the other four alone. */
  function Click(f: Flags, sw: Switch): (r: Flags)
    ensures Get(r, sw) == !Get(f, sw)
    ensures forall o: Switch :: o != sw ==> Get(r, o) == Get(f, o)
  {
    match sw
    case EmailNotifications => f.(emailNotifications := !f.emailNotifications)
    case AttendanceReminders => f.(attendanceReminders := !f.attendanceReminders)
    case LeaveUpdates => f.(leaveUpdates := !f.leaveUpdates)
    case SalaryNotifications => f.(salaryNotifications := !f.salaryNotifications)
    case TwoFactorAuth => f.(twoFactorAuth := !f.twoFactorAuth)
  }

  /** Two flag settings that agree on every switch are the same. */
  lemma FlagsExtensional(f: Flags, g: Flags)
    requires forall sw: Switch :: Get(f, sw) == Get(g, sw)
    ensures f == g
  {
    assert Get(f, EmailNotifications) == Get(g, EmailNotifications);
    assert Get(f, AttendanceReminders) == Get(g, AttendanceReminders);
    assert Get(f, LeaveUpdates) == Get(g, LeaveUpdates);
    assert Get(f, SalaryNotifications) == Get(g, SalaryNotifications);
    assert Get(f, TwoFactorAuth) == Get(g, TwoFactorAuth);
  }

  /** Clicking a switch twice leaves every flag as it was. */
  lemma ClickTwice(f: Flags, sw: Switch)
    ensures Click(Click(f, sw), sw) == f
  {
    FlagsExtensional(Click(Click(f, sw), sw), f);
  }

  /** Clicks on two switches give the same flags in either order. */
  lemma ClicksCommute(f: Flags, a: Switch, b: Switch)
    ensures Click(Click(f, a), b) == Click(Click(f, b), a)
  {
    FlagsExtensional(Click(Click(f, a), b), Click(Click(f, b), a));
  }
}

=== FILE: sidebar.dfy ===
/** The navigation sidebar of `src/components/Sidebar.tsx`: the link list chosen
    by role, and the logout button. */
module Sidebar {
  import opened Wrappers
  import opened Text
  import opened Types
  import opened Layout
  import App
  import Auth

  datatype NavItem = NavItem(caption: string, path: string)

  function Caption(p: App.Page): string {
    match p
    case EmployeeDashboard => "Dashboard"
    case Attendance => "Attendance"
    case Salary => "Salary"
    case Profile => "Profile"
    case AdminDashboard => "Dashboard"
    case AdminEmployees => "Employees"
    case AdminSettings => "Settings"
  }

  predicate IsAdmin(user: Option<User>) {
    user.Some? && user.value.role == Admin
  }

  /** The pages linked, in order. */
  function NavPages(user: Option<User>): seq<App.Page> {
    if IsAdmin(user) then [App.AdminDashboard, App.AdminEmployees, App.AdminSettings]
    else [App.EmployeeDashboard, App.Attendance, App.Salary, App.Profile]
  }

  /** Link paths serve as keys, so no two links share one. */
  predicate DistinctPaths(items: seq<NavItem>) {
    forall i, j :: 0 <= i < j < |items| ==> items[i].path != items[j].path
  }

  predicate InAdminSection(p: App.Page) {
    p in {App.AdminDashboard, App.AdminEmployees, App.AdminSettings}
  }

  /** One link per page, in order. */
  function ItemsOf(pages: seq<App.Page>): (r: seq<NavItem>)
    ensures |r| == |pages|
    ensures forall i :: 0 <= i < |r| ==> r[i] == NavItem(Caption(pages[i]), App.PagePath(pages[i]))
  {
    seq(|pages|, i requires 0 <= i < |pages| => NavItem(Caption(pages[i]), App.PagePath(pages[i])))
  }

  /** Distinct pages give distinct link paths. */
  lemma ItemsOfDistinct(pages: seq<App.Page>)
    requires forall i, j :: 0 <= i < j < |pages| ==> pages[i] != pages[j]
    ensures DistinctPaths(ItemsOf(pages))
  {
    var r := ItemsOf(pages);
    forall i, j | 0 <= i < j < |r|
      ensures r[i].path != r[j].path
    {
      App.MatchPagePath(pages[i]);
      App.MatchPagePath(pages[j]);
    }
  }

  /** A link's path lies in the admin section exactly when its page does. */
  lemma ItemsOfSection(pages: seq<App.Page>, i: int)
    requires 0 <= i < |pages|
    ensures Contains(ItemsOf(pages)[i].path, "/admin") <==> InAdminSection(pages[i])
  {
    App.AdminSectionPages(pages[i]);
  }

  /** The links shown: the admin section's three pages for an admin, and the four
      employee pages for anyone else, a signed-out visitor included. */
  function NavItems(user: Option<User>): (r: seq<NavItem>)
    ensures DistinctPaths(r)
    ensures IsAdmin(user) ==> |r| == 3 && forall i :: 0 <= i < |r| ==> Contains(r[i].path, "/admin")
    ensures !IsAdmin(user) ==> |r| == 4 && forall i :: 0 <= i < |r| ==> !Contains(r[i].path, "/admin")
  {
    var pages := NavPages(user);
    ItemsOfDistinct(pages);
    forall i | 0 <= i < |pages|
      ensures Contains(ItemsOf(pages)[i].path, "/admin") <==> IsAdmin(user)
    {
      ItemsOfSection(pages, i);
    }
    ItemsOf(pages)
  }

  /** Every link the sidebar offers a signed-in user opens a page the guard lets them stay on. */
  lemma NavLinksPassGuard(u: User, i: int)
    requires 0 <= i < |NavItems(Some(u))|
    ensures App.Resolve(Some(u), NavItems(Some(u))[i].path) == Allow
  {
    var pages := NavPages(Some(u));
    assert NavItems(Some(u))[i].path == App.PagePath(pages[i]);
    App.PageAllowed(u, pages[i]);
  }

  /** The logout button: log out, wait for it, then go to the login page. */
  function HandleLogout(): (r: seq<Auth.UiStep>)
    ensures Auth.ClearsBeforeLeaving(r, "/login")
  {
    Auth.LogoutThenLeave("/login")
  }
}

=== FILE: text.dfy ===
/** The string operations the portal relies on: substring containment (`includes`),
    ASCII lower-casing (standing in for `toLowerCase`) and character-code lexicographic
    order (standing in for `localeCompare`). */
module Text {

  predicate StartsWith(s: string, prefix: string) {
    |prefix| <= |s| && s[..|prefix|] == prefix
  }

  /** `sub` occurs in `s` at offset `i`. */
  predicate OccursAt(s: string, sub: string, i: int) {
    0 <= i && i + |sub| <= |s| && s[i..i + |sub|] == sub
  }

  /** JavaScript's `s.includes(sub)`: `sub` occurs anywhere in `s` (the empty string occurs everywhere). */
  predicate Contains(s: string, sub: string)
    decreases |s|
  {
    StartsWith(s, sub) || (|s| > 0 && Contains(s[1..], sub))
  }

  /** Any occurrence, at any offset, makes `Contains` true: it is not a prefix test. */
  lemma {:induction false} OccursImpliesContains(s: string, sub: string, i: int)
    requires OccursAt(s, sub, i)
    ensures Contains(s, sub)
    decreases i
  {
    if i > 0 {
      assert s[1..][i - 1..i - 1 + |sub|] == s[i..i + |sub|];
      OccursImpliesContains(s[1..], sub, i - 1);
    }
  }

  /** `Contains` only holds when there is an occurrence; returns its offset. */
  lemma {:induction false} ContainsImpliesOccurs(s: string, sub: string) returns (i: int)
    requires Contains(s, sub)
    ensures OccursAt(s, sub, i)
    decreases |s|
  {
    if StartsWith(s, sub) {
      i := 0;
    } else {
      var j := ContainsImpliesOccurs(s[1..], sub);
      assert s[1..][j..j + |sub|] == s[j + 1..j + 1 + |sub|];
      i := j + 1;
    }
  }

  /** Containment is exactly "occurs at some offset". */
  lemma ContainsIffOccurs(s: string, sub: string)
    ensures Contains(s, sub) <==> exists i :: OccursAt(s, sub, i)
  {
    if Contains(s, sub) {
      var i := ContainsImpliesOccurs(s, sub);
    }
    forall i | OccursAt(s, sub, i)
      ensures Contains(s, sub)
    {
      OccursImpliesContains(s, sub, i);
    }
  }

  /** With no occurrence anywhere, there is no containment. */
  lemma NoOccurrence(s: string, sub: string)
    requires forall i :: !OccursAt(s, sub, i)
    ensures !Contains(s, sub)
  {
    ContainsIffOccurs(s, sub);
  }

  /** A slash-led `sub` can only occur where `s` has a slash, so a string whose
      single slash leads it contains `sub` only as a prefix; `k` is where the two
      differ, or runs past the end of `s`. */
  lemma OnlyLeadingSlash(s: string, sub: string, k: nat)
    requires |sub| > 0 && sub[0] == '/'
    requires forall i :: 0 < i < |s| ==> s[i] != '/'
    requires k < |sub| && (k >= |s| || s[k] != sub[k])
    ensures !Contains(s, sub)
  {
    if |sub| <= |s| {
      assert s[..|sub|][k] == s[k];
    }
    forall i
      ensures !OccursAt(s, sub, i)
    {
      if 0 < i && i + |sub| <= |s| {
        assert s[i..i + |sub|][0] == s[i];
      }
    }
    NoOccurrence(s, sub);
  }

  /** A string contains its own prefix. */
  lemma PrefixContained(pre: string, rest: string)
    ensures Contains(pre + rest, pre)
  {
    assert (pre + rest)[..|pre|] == pre;
  }

  /** A string contains anything placed inside it. */
  lemma ContainsInfix(a: string, sub: string, b: string)
    ensures Contains(a + sub + b, sub)
  {
    var s := a + sub + b;
    assert s[|a|..|a| + |sub|] == sub;
    OccursImpliesContains(s, sub, |a|);
  }

  function LowerChar(c: char): char {
    if 'A' <= c <= 'Z' then (c as int + 32) as char else c
  }

  /** ASCII lower-casing, character by character. */
  function Lower(s: string): (r: string)
    ensures |r| == |s|
    ensures forall i :: 0 <= i < |s| ==> r[i] == LowerChar(s[i])
    ensures forall i :: 0 <= i < |r| ==> !('A' <= r[i] <= 'Z')
  {
    seq(|s|, i requires 0 <= i < |s| => LowerChar(s[i]))
  }

  /** Lower-casing a second time changes nothing. */
  lemma LowerIdempotent(s: string)
    ensures Lower(Lower(s)) == Lower(s)
  {
  }

  /** Text without capital letters is its own lower-case form. */
  lemma LowerOfLower(s: string)
    requires forall i :: 0 <= i < |s| ==> !('A' <= s[i] <= 'Z')
    ensures Lower(s) == s
  {
  }

  /** Lower-casing works character by character, so it commutes with taking a prefix. */
  lemma LowerPrefix(s: string, n: nat)
    requires n <= |s|
    ensures Lower(s)[..n] == Lower(s[..n])
  {
  }

  lemma LowerAppend(a: string, b: string)
    ensures Lower(a + b) == Lower(a) + Lower(b)
  {
  }

  /** `s` without its trailing slashes. */
  function StripTrailingSlashes(s: string): (r: string)
    ensures |r| <= |s| && s[..|r|] == r
    ensures r == [] || r[|r| - 1] != '/'
    ensures forall i :: |r| <= i < |s| ==> s[i] == '/'
    decreases |s|
  {
    if s != [] && s[|s| - 1] == '/' then StripTrailingSlashes(s[..|s| - 1]) else s
  }

  /** `a` sorts no later than `b` in character-code lexicographic order:
      `a.localeCompare(b) <= 0` without locale collation. */
  predicate LexLe(a: string, b: string)
    decreases |a|
  {
    |a| == 0 || (|b| > 0 && (a[0] < b[0] || (a[0] == b[0] && LexLe(a[1..], b[1..]))))
  }

  lemma {:induction false} LexLeReflexive(a: string)
    ensures LexLe(a, a)
    decreases |a|
  {
    if |a| > 0 {
      LexLeReflexive(a[1..]);
    }
  }

  lemma {:induction false} LexLeTotal(a: string, b: string)
    ensures LexLe(a, b) || LexLe(b, a)
    decreases |a|
  {
    if |a| > 0 && |b| > 0 && a[0] == b[0] {
      LexLeTotal(a[1..], b[1..]);
    }
  }

  lemma {:induction false} LexLeTransitive(a: string, b: string, c: string)
    requires LexLe(a, b) && LexLe(b, c)
    ensures LexLe(a, c)
    decreases |a|
  {
    if |a| > 0 && a[0] == b[0] && b[0] == c[0] {
      LexLeTransitive(a[1..], b[1..], c[1..]);
    }
  }

  /** `a` is `b` with some elements left out, the rest in their original order. */
  predicate IsSubsequence<T(==)>(a: seq<T>, b: seq<T>)
    decreases |b|
  {
    a == [] || (b != [] && ((a[0] == b[0] && IsSubsequence(a[1..], b[1..])) || IsSubsequence(a, b[1..])))
  }
}

=== FILE: types.dfy ===
/** The signed-in user record of `src/types/index.ts`. */
module Types {

  /** The role is one of exactly two values. */
  datatype Role = Admin | Employee

  /** The session record. `salary` is a JavaScript number; the model keeps whole numbers. */
  datatype User = User(
    id: string,
    name: string,
    email: string,
    role: Role,
    department: string,
    position: string,
    salary: int)

  /** The text a role is stored as. */
  function RoleName(r: Role): string {
    match r
    case Admin => "admin"
    case Employee => "employee"
  }
}

=== FILE: wrappers.dfy ===
/** Optional values, usable with `:-` so that partial decoders read as a chain of steps. */
module Wrappers {

  datatype Option<+T> = None | Some(value: T) {

    /** A missing value stops a `:-` chain. */
    predicate IsFailure() {
      None?
    }

    /** Converts a None to an Option of a different value type. */
    function PropagateFailure<U>(): Option<U>
      requires None?
    {
      None
    }

    /** The present value, for the next step of a `:-` chain. */
    function Extract(): T
      requires Some?
    {
      value
    }
  }
}
